=== FILE: README.md ===
# caddy-nats-bridge core, modelled in Dafny

This project models the core of caddy-nats-bridge. That is the Caddy module
that turns an inbound HTTP request into a NATS request, waits for the reply
and writes the reply back as the HTTP response. The modelled parts are:

- `HeaderLogging` (`header_logging.dfy`) handles redaction of logged headers.
  It parses the comma-separated redact list, does a case-insensitive match,
  and masks every value with `***`.
- `HttpToNats` (`http_msg_to_nats_msg.dfy`) builds the bus message from an
  HTTP request. The subject is checked for `>`, `$` and space. The request
  headers and context extras are carried over. The three synthetic
  `X-NatsBridge-*` headers are appended, and the body becomes the data.
- `NatsRequest` (`request.dfy`) is the `nats_request` HTTP handler. It covers
  the handler defaults and the server alias lookup. It maps no-responders to
  404 and any other request failure to 500. It copies the reply headers
  except the four error-header spellings. It applies the
  `Nats-Service-Error-Code` status override and writes the body.
- `NatsBridgeApp` (`nats_bridge_app.dfy`) is the app lifecycle:
  - `New`;
  - `Provision`, which sets default timeouts and loads handler modules;
  - `Start`, which builds connect options, connects and subscribes;
  - `Stop`, which unsubscribes and then closes every connection.
- `Caddyfile` (`caddyfile.dfy`) is the global `nats` option. It covers alias
  selection, the seven string subdirectives, `subscribe` and
  `defaultTimeout`. It also covers merging into an earlier option's value.
- `Text` and `Headers` are support modules. `Text` holds the string functions
  the code relies on: lower-casing, `TrimSpace`, `Split` and `Atoi`.
  `Headers` holds the header-map operations: `Add`, `Get`, and appending one
  map onto another.

The effects are modelled as follows:
- Every NATS effect is an input. A request receives the outcome the bus
  would deliver. `Start` and `Stop` receive a `BusEnv`, which says whether:
  - an NKey seed file loads;
  - a connect succeeds;
  - a subscribe succeeds;
  - an unsubscribe succeeds.
- Go map iteration order is an explicit enumeration of the map's keys.
  Lemmas show where the result does not depend on that order.
- Durations are integers counting nanoseconds.

Where the repository's own tests expect otherwise, the model follows the code.
Those tests expect a timeout read from `NATS_REQUEST_DEFAULT_TIMEOUT`
(request/request_test.go:177-232) and a 504 on timeout
(request/request_test.go:465). The code as written does the following:
- A request that times out answers 500, like any other request failure. There
  is no 504.
- The handler's timeout defaults to 30 seconds. No environment variable or
  server `defaultTimeout` is consulted for it.
- The synthetic headers are appended with `Add`. A value already stored under
  the exact key `X-NatsBridge-Method`, for example one set by Go code rather
  than a client, stays first.
- The reply headers are filtered on four exact spellings. Only the exact key
  `Nats-Service-Error-Code` is read for the status.
- A body read error is ignored. The bytes read so far become the data.
- The unused regular expression `subjectRgx` plays no part. Only the three
  characters of `invalidChars` are rejected, so a tab in a subject passes.

## Model

| member | source | states |
|---|---|---|
| Text.LowerEqualIffEqualFold | common/header_logging.go:43-47 | comparing lower-cased names is exactly case-insensitive equality, in both directions |
| Text.TrimSpace | common/header_logging.go:30 | the result is the slice between the first and last non-space characters; it is empty exactly when the part is all white space |
| Text.Split | common/header_logging.go:26 | there is always at least one part, and no part contains the separator |
| Text.JoinSplit | common/header_logging.go:26 | splitting on a separator loses nothing: joining the parts gives back the input |
| Text.SplitJoin | common/header_logging.go:26 | separator-free parts joined and split again come back unchanged |
| Text.Atoi | request/request.go:96 | a parse succeeds exactly on an optional `+` or `-` followed by at least one decimal digit whose signed value fits 64 bits, and then yields that value |
| Text.AtoiPlusAndLeadingZero | request/request.go:96 | a leading `+` or a leading zero changes nothing: "+404" and "0404" parse like "404" |
| Text.AtoiFormatInt | request/request.go:96 | every 64-bit integer written in decimal parses back to itself |
| Headers.Add | common/http_msg_to_nats_msg.go:29 | adding a value appends it after the key's existing values; other keys are unchanged |
| Headers.Get | request/request.go:94 | the first value stored under the exact key, or "" when there is none |
| Headers.CopyInOrder | request/request.go:85-92 | the copy loop in a given key order leaves every key it does not visit as it was |
| Headers.Merge | request/request.go:85-92 | the keys are the destination's plus the non-empty source keys; each key's values are the destination's followed by the source's |
| Headers.CopyInAnyOrderIsMerge | request/request.go:85-92 | with keys taken exactly as written, copying header by header in any iteration order of the source gives the same map as the merge (see "Left out" on key canonicalisation) |
| HeaderLogging.ParseRedactList | common/header_logging.go:17-39 | an empty setting gives an empty list; a name is listed exactly when some comma-separated part, trimmed and non-empty, lower-cases to it |
| HeaderLogging.ParsedEntriesAreLowerCase | common/header_logging.go:33 | every listed name is already lower case |
| HeaderLogging.ShouldRedact | common/header_logging.go:42-53 | the scan answers true exactly when the lower-cased header name is in the list |
| HeaderLogging.RedactsIgnoresCase | common/header_logging.go:43-47 | two names equal up to case are redacted alike |
| HeaderLogging.RedactsConfiguredNameAnyCase | common/header_logging.go:17-53 | a name written in the setting is redacted whatever case the header uses |
| HeaderLogging.RedactHeaders | common/header_logging.go:58-80 | a nil map stays nil; the keys are unchanged; a redacted key keeps its number of values, all "***"; other keys keep their values |
| HeaderLogging.RedactIdempotent | common/header_logging.go:58-80 | redacting twice equals redacting once |
| HeaderLogging.EmptyConfigRedactsNothing | common/header_logging.go:17-80 | with the setting empty, the headers come back unchanged |
| HttpToNats.CheckSubject | common/http_msg_to_nats_msg.go:32-36 | the scan accepts exactly the subjects with none of `>`, `$`, space |
| HttpToNats.NatsMsgForHttpRequest | common/http_msg_to_nats_msg.go:23-52 | an error exactly when the subject holds a forbidden character, naming the subject; otherwise the message keeps the subject and carries the body bytes |
| HttpToNats.BodyReadErrorIgnored | common/http_msg_to_nats_msg.go:25 | a failed body read yields the same message as a clean read of the same bytes |
| HttpToNats.MessageHeader | common/http_msg_to_nats_msg.go:27-46 | the message header has exactly the request's keys, the extras' keys and the three synthetic names |
| HttpToNats.MessageHeaderValues | common/http_msg_to_nats_msg.go:27-46 | each key's values are the request's values followed by the context extra and then the synthetic value; no other key appears |
| HttpToNats.TranslatedHeaderValues | common/http_msg_to_nats_msg.go:23-52 | the same holds for the header of the translated message |
| HttpToNats.SyntheticHeadersLast | common/http_msg_to_nats_msg.go:44-46 | the last values of the three synthetic headers are the method, the URL path and the raw query |
| HttpToNats.CallerSyntheticValueSurvives | common/http_msg_to_nats_msg.go:44-46 | a value already stored under the exact key `X-NatsBridge-Method`, for example one set by Go code rather than a client, keeps its first place, so reading the header returns that value |
| HttpToNats.ExtrasInAnyOrder | common/http_msg_to_nats_msg.go:27-30 | the context extras give the same headers whatever order they are visited in |
| NatsRequest.NewRequest | request/request.go:30-36 | a new handler has a 30-second timeout, alias "default" and no subject |
| NatsRequest.FilterReplyHeader | request/request.go:85-92 | exactly the four error-header spellings are dropped; every other key keeps its values |
| NatsRequest.ProjectReply | request/request.go:85-110 | the response gets the filtered reply headers appended; a malformed code gives 500, no body and that error; otherwise the code's status (if any) and the reply data are written, and the only possible error is the write failure |
| NatsRequest.StatusOverride | request/request.go:94-102 | an empty or "200" code sets no status; an integer code sets that status; any other code is an error |
| NatsRequest.ServeHTTP | request/request.go:54-111 | an unknown alias or a bad subject returns an error before anything is sent; a request is sent exactly when both are fine, on that alias with that timeout; no responders gives 404, any other failure gives 500; the reply's filtered headers are appended; success means the reply data was written; once the body is written, the call fails exactly when the write fails, with a write error |
| NatsRequest.ReplyStatusRoundTrip | request/request.go:94-102 | a reply code that is the decimal form of n gives wire status n, and the body is written |
| NatsRequest.ReplyStatusCases | request/request.go:94-110 | with no code or "200" the status stays default, the body is written, and the call fails only on a write failure; an integer code becomes the status, the body is written, and the call fails only on a write failure; a non-integer code gives 500, no body and an error |
| NatsRequest.ResponseHeaderValues | request/request.go:85-92 | with reply keys taken exactly as written, a filtered spelling keeps only the values already on the response and any other key gets the reply's values appended in order (see "Left out" on key canonicalisation) |
| NatsRequest.CodeTwoHundredSameAsAbsent | request/request.go:94-95 | a code of "200" is answered exactly as a reply without the code |
| NatsRequest.LowerCaseCodeIgnored | request/request.go:86-94 | a code sent only under the lower-case spelling sets no status and is not copied |
| NatsBridgeApp.New | natsbridge/nats_bridge_app.go:53-58 | a new app has no servers |
| NatsBridgeApp.FillDefaultTimeout | natsbridge/nats_bridge_app.go:69-79 | a missing timeout becomes 60 seconds; a given one is kept |
| NatsBridgeApp.LoadAll | natsbridge/nats_bridge_app.go:82-91 | success exactly when every raw handler loads, giving the loaded handlers in order; a failure is some handler's load error |
| NatsBridgeApp.LoadHandlers | natsbridge/nats_bridge_app.go:82-92 | success exactly when every listed server's handlers load; on success the listed servers carry their loaded handlers and the others are untouched |
| NatsBridgeApp.Provision | natsbridge/nats_bridge_app.go:63-95 | success exactly when every server's handlers load; the server names are kept; each server gets a default timeout and its loaded handlers |
| NatsBridgeApp.ProvisionFillsTimeouts | natsbridge/nats_bridge_app.go:69-79 | after provisioning each server's timeout is its own, or 60 seconds when it had none |
| NatsBridgeApp.ForEachServer | natsbridge/nats_bridge_app.go:98-143 | visiting the servers in order and stopping at the first failure keeps the server names; it succeeds exactly when every server's step succeeds, and then each server holds its step's result |
| NatsBridgeApp.ForEachServerFirstError | natsbridge/nats_bridge_app.go:98-143 | a failure is the error of the first failing server in iteration order; every earlier server succeeded; that server and every earlier one keep what their step left, with nothing rolled back; every later one is untouched |
| NatsBridgeApp.ConnectOptions | natsbridge/nats_bridge_app.go:103-128 | an NKey seed that does not load fails only when no user credential file is set; otherwise the options are those the server's fields call for, ending with unlimited reconnects |
| NatsBridgeApp.SubscribeFrom | natsbridge/nats_bridge_app.go:137-142 | subscribing succeeds exactly when every handler's subscribe does; it stops at the first failing handler, which it names |
| NatsBridgeApp.StartServer | natsbridge/nats_bridge_app.go:98-142 | an NKey load failure returns that error and leaves the server unchanged; a failed connect returns the connect error and leaves no connection; a failed subscribe returns the first failing handler, with the connection left open; on success the server is connected with its options and all its handlers are subscribed |
| NatsBridgeApp.Start | natsbridge/nats_bridge_app.go:97-146 | starting succeeds exactly when every server starts; then every server is connected and subscribed |
| NatsBridgeApp.StartStopsAtFirstFailure | natsbridge/nats_bridge_app.go:97-146 | a failed start reports the first failing server's error; nothing is rolled back: the servers before it stay connected with every handler subscribed, the failing one keeps what its own attempt left (an open connection when the subscribe failed), and the servers after it stay untouched |
| NatsBridgeApp.StopStopsAtFirstFailure | natsbridge/nats_bridge_app.go:148-167 | a failed stop reports the first failing unsubscribe; every earlier server unsubscribed all its handlers and is left with no live subscription; the failing server keeps the subscriptions its loop did not reach; later servers keep theirs |
| NatsBridgeApp.StopStateAfterFailure | natsbridge/nats_bridge_app.go:148-167 | given the first failing server of the unsubscribe loop, the servers before it hold no live subscription, the failing one holds what its loop left, and later ones keep theirs |
| NatsBridgeApp.UnsubscribeFrom | natsbridge/nats_bridge_app.go:158-163 | unsubscribing succeeds exactly when every handler's unsubscribe does; it stops at the first failing handler, which it names |
| NatsBridgeApp.UnsubscribeAllClears | natsbridge/nats_bridge_app.go:157-164 | when every unsubscribe succeeds, no handler of the server is left subscribed |
| NatsBridgeApp.CloseConn | natsbridge/nats_bridge_app.go:152 | after closing, no connection is open; an open one becomes closed with the same URL and options; a nil or already closed one is left as it was |
| NatsBridgeApp.CloseAll | natsbridge/nats_bridge_app.go:149-154 | the deferred loop closes every server's connection and changes nothing else |
| NatsBridgeApp.Stop | natsbridge/nats_bridge_app.go:148-167 | every connection ends up not open, even after a failed unsubscribe; stopping succeeds exactly when every handler unsubscribes, and then none is left subscribed |
| Caddyfile.SetField | natsbridge/caddyfile.go:55-82 | a string subdirective sets its own field and leaves every other field unchanged |
| Caddyfile.StringDirective | natsbridge/caddyfile.go:55-82 | a string subdirective succeeds exactly with one argument; with at least one argument the server is exactly SetField of the first, so no other field (timeout, handlers, the other strings) changes, even when extra arguments make it an error; with none nothing changes |
| Caddyfile.SubscribeAppendsOne | natsbridge/caddyfile.go:83-89 | `subscribe` succeeds exactly when its handler parses, and then appends that handler after the existing ones |
| Caddyfile.DefaultTimeoutDirective | natsbridge/caddyfile.go:90-99 | `defaultTimeout` needs an argument; an unparsable duration is an error; a parsed one becomes the server's timeout; any further tokens on the line are left over, the next one to be read as a subdirective and the rest as its arguments |
| Caddyfile.TimeoutLeftoverIsNextDirective | natsbridge/caddyfile.go:53-99 | after `defaultTimeout <d>`, the loop reads the next token on the line as the following subdirective, so `defaultTimeout 5s url x` also sets the url |
| Caddyfile.TimeoutTrailingTokenRejected | natsbridge/caddyfile.go:53-101 | `defaultTimeout 5s junk` sets the timeout and then fails with an unrecognized subdirective naming `junk` |
| Caddyfile.UnknownDirectiveRejected | natsbridge/caddyfile.go:100-101 | any other subdirective is an error and changes nothing |
| Caddyfile.ApplyLine | natsbridge/caddyfile.go:54-102 | one subdirective never touches handlers, connection or subscriptions, and the tokens it leaves on its line are fewer than it read |
| Caddyfile.ApplyLines | natsbridge/caddyfile.go:53-103 | the subdirective loop never touches handlers, connection or subscriptions |
| Caddyfile.ApplyLinesConcat | natsbridge/caddyfile.go:53-103 | lines that apply cleanly hand their server on to the lines after them |
| Caddyfile.ApplyLinesStopsAtFailure | natsbridge/caddyfile.go:53-103 | an unknown or malformed line ends the block with its own error, whatever lines follow it |
| Caddyfile.ApplyBlock | natsbridge/caddyfile.go:40-51 | a block adds its alias to the server names and leaves every other server unchanged |
| Caddyfile.BlockTargetsAlias | natsbridge/caddyfile.go:40-51 | the block's lines apply to the alias's existing record or a fresh one; a second argument is an error after the record exists |
| Caddyfile.UnmarshalCaddyfile | natsbridge/caddyfile.go:37-107 | no earlier server is removed, and the first block's alias always exists afterwards |
| Caddyfile.UnmarshalTouchesNamedServers | natsbridge/caddyfile.go:37-107 | only servers named by some block can appear or change; on success the server names are the earlier ones plus every block's alias |
| Caddyfile.UnmarshalConcat | natsbridge/caddyfile.go:37-107 | blocks that parse cleanly hand their servers on to the blocks after them |
| Caddyfile.UnmarshalStopsAtFailure | natsbridge/caddyfile.go:37-107 | a failing block ends the parse with its own error, and the blocks after it are not applied |
| Caddyfile.UnmarshalFailureHasFirstBlock | natsbridge/caddyfile.go:37-107 | a failed parse has a first failing block, with every block before it applied cleanly |
| Caddyfile.UnmarshalErrorIsFirstBlockError | natsbridge/caddyfile.go:37-107 | the parse fails exactly when some block is the first to fail, and the error is that block's |
| Caddyfile.RepeatedBlocksMerge | natsbridge/caddyfile.go:44-48 | two blocks for one alias merge into a single record that keeps the fields of both |
| Caddyfile.ParseGlobalNatsOption | natsbridge/caddyfile.go:13-35 | an earlier value of another type is an error; an undecodable one passes on the decode error; otherwise the blocks are parsed on top of the earlier servers and emitted under the name "nats", together with the parse error, if any |
| Caddyfile.UnknownDirectiveFailsOption | natsbridge/caddyfile.go:29-34 | a `nats` option holding an unknown subdirective is emitted with that subdirective's error |

## Left out

- NATS I/O is not executed. Connecting, subscribing, request/reply and closing are replaced by the outcomes they deliver. Connection state is a small `Conn` value.
- The Caddy replacer is left out. The subject after placeholder substitution is an input, and `AddNATSPublishVarsToReplacer` is not part of this model.
- The Caddy dispenser is abstracted. It becomes blocks of lines, where a line is a directive followed by its arguments.
- `time.ParseDuration`, the `subscribe` handler's own parser, `ctx.LoadModule` and `json.Unmarshal` are inputs, given as functions. Their internals are not modelled.
- The logger, `sync.Once` caching and the read of `LOGGER_REDACT_HEADERS` are left out. The redact setting is a parameter, and `resetRedactHeadersCache` only exists for tests.
- Case mapping, white space and digits are ASCII only. Go's Unicode case folding and Unicode white space are not modelled.
- Response header keys are kept exactly as the reply wrote them. In net/http, `http.Header.Add` (request/request.go:90) canonicalises keys, and the model leaves that out. Two consequences follow for the real handler:
  - Two reply keys that differ only in case, such as `x-a` and `X-A`, both land on `X-A`, in Go's map iteration order. So the order independence stated by Headers.CopyInAnyOrderIsMerge holds only for replies whose keys are already canonical.
  - A reply key such as `NATS-SERVICE-ERROR-CODE` passes the exact-spelling filter and reaches the response as `Nats-Service-Error-Code`. So NatsRequest.ResponseHeaderValues holds only for keys already in canonical form.
- `nats.Header` uses exact keys, and the model matches that.
- Request header keys arrive canonicalised by net/http (`textproto.CanonicalMIMEHeaderKey`), and the model takes the request's header map as given. A client's `X-NatsBridge-Method` therefore reaches the handler as `X-Natsbridge-Method`. That is a different key from the synthetic `X-NatsBridge-Method` added at common/http_msg_to_nats_msg.go:44, so in the real handler `Get("X-NatsBridge-Method")` returns the HTTP method. HttpToNats.CallerSyntheticValueSurvives is about a map that already holds the exact key.
- `nats.Header(r.Header)` shares the map with the request, and the additions also mutate the request's own headers. The model builds a fresh map.
- `WriteHeader` with a status outside 100-999 panics in net/http. The model records the status as given.
- `Request.Provision` (fetching the app from the Caddy context) is left out. The handler receives the app directly.
- The handlers run in Caddy's concurrent environment. The model is sequential.
- NatsBridgeApp.LoadHandlers: a nil and an empty `HandlersRaw` are the same empty sequence, so the Go nil check does not appear.
- Caddyfile.UnmarshalCaddyfile: JSON round-tripping of the emitted app (`caddyconfig.JSON`) is not modelled. The emitted value is the app itself.

=== FILE: caddyfile.dfy ===
/** The global `nats` option of a Caddyfile.  Each `nats [alias] { ... }`
    block selects (or creates) the server record of its alias and applies
    its subdirective lines to it.  The token dispenser is abstracted as
    blocks of lines; duration parsing, the `subscribe` handler parser and
    JSON decoding are supplied as functions. */
module Caddyfile {
  import opened Results
  import opened NatsBridgeApp

  /** A subdirective line: its first token and the tokens after it on the
      same line. */
  datatype Line = Line(directive: string, args: seq<string>)

  /** A `nats` block: the tokens after `nats` on its first line, and its
      subdirective lines. */
  datatype Block = Block(args: seq<string>, lines: seq<Line>)

  datatype ParseError =
    | ArgErr(directive: string)
    | BadDuration(value: string)
    | Unrecognized(directive: string)
    | SubscribeError(reason: string)
    | UnexpectedExistingType
    | DecodeFailed(reason: string)

  /** The external parsers: `time.ParseDuration` and the `subscribe`
      handler's own Caddyfile parser (which yields the handler's JSON). */
  datatype Parsers = Parsers(
    duration: string -> Option<int>,
    subscribe: Line -> Result<RawHandler, string>)

  const DefaultAlias: string := "default"

  /** The seven subdirectives that set one string field from one argument. */
  const StringFields: set<string> :=
    {"url", "jwt", "seed", "userCredentialFile", "nkeyCredentialFile", "clientName", "inboxPrefix"}

  /** The string field a subdirective names. */
  function GetField(s: NatsServer, name: string): string
    requires name in StringFields
  {
    match name
    case "url" => s.url
    case "jwt" => s.jwt
    case "seed" => s.seed
    case "userCredentialFile" => s.userCredentialFile
    case "nkeyCredentialFile" => s.nkeyCredentialFile
    case "clientName" => s.clientName
    case _ => s.inboxPrefix
  }

  /** `s` with the field named by a subdirective set to `v` and every other
      field unchanged. */
  function SetField(s: NatsServer, name: string, v: string): (r: NatsServer)
    requires name in StringFields
    ensures GetField(r, name) == v
    ensures forall other :: other in StringFields && other != name ==> GetField(r, other) == GetField(s, other)
    ensures r.defaultTimeout == s.defaultTimeout && r.handlersRaw == s.handlersRaw
    ensures r.handlers == s.handlers && r.conn == s.conn && r.subscribed == s.subscribed
  {
    match name
    case "url" => s.(url := v)
    case "jwt" => s.(jwt := v)
    case "seed" => s.(seed := v)
    case "userCredentialFile" => s.(userCredentialFile := v)
    case "nkeyCredentialFile" => s.(nkeyCredentialFile := v)
    case "clientName" => s.(clientName := v)
    case _ => s.(inboxPrefix := v)
  }

  /** The Caddyfile never touches a server's decoded handlers, connection
      or subscriptions. */
  predicate FramedFields(s: NatsServer, s': NatsServer) {
    s'.handlers == s.handlers && s'.conn == s.conn && s'.subscribed == s.subscribed
  }

  /** What one subdirective line did: the server after it, the error it
      raised, and the tokens left on its line that the dispenser reads next
      as a further subdirective. */
  datatype LineResult = LineResult(server: NatsServer, err: Option<ParseError>, leftover: Option<Line>)

  /** One iteration of the `switch d.Val()` in `UnmarshalCaddyfile`. */
  function ApplyLine(s: NatsServer, line: Line, parsers: Parsers): (r: LineResult)
    ensures r.leftover.Some? ==> r.err.None? && |r.leftover.value.args| + 1 < |line.args| + 1
    ensures FramedFields(s, r.server)
  {
    var d := line.directive;
    var args := line.args;
    if d in StringFields then
      // `AllArgs` stores the first argument before it notices a second one
      if |args| == 0 then LineResult(s, Some(ArgErr(d)), None)
      else if |args| > 1 then LineResult(SetField(s, d, args[0]), Some(ArgErr(d)), None)
      else LineResult(SetField(s, d, args[0]), None, None)
    else if d == "subscribe" then
      match parsers.subscribe(line)
      case Err(e) => LineResult(s, Some(SubscribeError(e)), None)
      case Ok(raw) => LineResult(s.(handlersRaw := s.handlersRaw + [raw]), None, None)
    else if d == "defaultTimeout" then
      if |args| == 0 then LineResult(s, Some(ArgErr(d)), None)
      else match parsers.duration(args[0])
        case None => LineResult(s, Some(BadDuration(args[0])), None)
        case Some(t) =>
          var leftover := if |args| > 1 then Some(Line(args[1], args[2..])) else None;
          LineResult(s.(defaultTimeout := Some(t)), None, leftover)
    else
      LineResult(s, Some(Unrecognized(d)), None)
  }

  /** The number of tokens in a list of lines. */
  function Tokens(lines: seq<Line>): nat {
    if lines == [] then 0 else 1 + |lines[0].args| + Tokens(lines[1..])
  }

  /** The subdirective loop of a block, stopping at the first error. */
  function ApplyLines(s: NatsServer, lines: seq<Line>, parsers: Parsers): (r: (NatsServer, Option<ParseError>))
    ensures FramedFields(s, r.0)
    decreases Tokens(lines)
  {
    if lines == [] then (s, None)
    else
      var out := ApplyLine(s, lines[0], parsers);
      if out.err.Some? then (out.server, out.err)
      else
        var rest := if out.leftover.Some? then [out.leftover.value] + lines[1..] else lines[1..];
        assert Tokens(rest) < Tokens(lines) by {
          if out.leftover.Some? {
            assert Tokens([out.leftover.value] + lines[1..]) == 1 + |out.leftover.value.args| + Tokens(lines[1..]);
          }
        }
        ApplyLines(out.server, rest, parsers)
  }

  /** The alias a block names: its one argument, else "default". */
  function BlockAlias(b: Block): string {
    if |b.args| > 0 then b.args[0] else DefaultAlias
  }

  /** One `nats` block applied to the server map.  The alias's record is
      created before any check, so it exists even when the block fails. */
  function ApplyBlock(servers: map<string, NatsServer>, b: Block, parsers: Parsers)
    : (r: (map<string, NatsServer>, Option<ParseError>))
    ensures r.0.Keys == servers.Keys + {BlockAlias(b)}
    ensures forall k :: k in servers && k != BlockAlias(b) ==> r.0[k] == servers[k]
  {
    var alias := BlockAlias(b);
    var server := if alias in servers then servers[alias] else EmptyServer();
    if |b.args| > 1 then (servers[alias := server], Some(ArgErr("nats")))
    else
      var (server', err) := ApplyLines(server, b.lines, parsers);
      (servers[alias := server'], err)
  }

  /** The aliases the blocks name. */
  function Aliases(blocks: seq<Block>): set<string> {
    set i | 0 <= i < |blocks| :: BlockAlias(blocks[i])
  }

  lemma AliasesCons(blocks: seq<Block>)
    requires blocks != []
    ensures Aliases(blocks) == {BlockAlias(blocks[0])} + Aliases(blocks[1..])
  {
    var rest := blocks[1..];
    forall k | k in Aliases(blocks) ensures k in {BlockAlias(blocks[0])} + Aliases(rest) {
      var i :| 0 <= i < |blocks| && BlockAlias(blocks[i]) == k;
      if i > 0 { assert BlockAlias(rest[i - 1]) == k; }
    }
    forall k | k in Aliases(rest) ensures k in Aliases(blocks) {
      var i :| 0 <= i < |rest| && BlockAlias(rest[i]) == k;
      assert BlockAlias(blocks[i + 1]) == k;
    }
  }

  /** `UnmarshalCaddyfile`: the blocks in order, stopping at the first error. */
  function UnmarshalCaddyfile(app: App, blocks: seq<Block>, parsers: Parsers): (r: (App, Option<ParseError>))
    ensures r.0.servers.Keys >= app.servers.Keys
    ensures blocks != [] ==> BlockAlias(blocks[0]) in r.0.servers
    decreases |blocks|
  {
    if blocks == [] then (app, None)
    else
      var (servers, err) := ApplyBlock(app.servers, blocks[0], parsers);
      if err.Some? then (App(servers), err)
      else UnmarshalCaddyfile(App(servers), blocks[1..], parsers)
  }

  /** The value of an earlier `nats` option, if any: a Caddyfile app value
      carrying JSON, or something of another type. */
  datatype Existing = NoExisting | CaddyfileApp(json: string) | OtherValue

  /** What the option parser emits: the app under its name, with the parse
      error (if any) returned alongside it. */
  datatype GlobalOption = GlobalOption(name: string, app: App, err: Option<ParseError>)

  /** `ParseGobalNatsOption`: decode the existing value (if any), parse the
      blocks on top of it and emit the app under the name "nats". */
  function ParseGlobalNatsOption(existing: Existing, blocks: seq<Block>, parsers: Parsers,
                                 decode: string -> Result<map<string, NatsServer>, string>)
    : (r: Result<GlobalOption, ParseError>)
    ensures existing.OtherValue? ==> r == Err(UnexpectedExistingType)
    ensures existing.CaddyfileApp? && decode(existing.json).Err? ==>
              r == Err(DecodeFailed(decode(existing.json).error))
    ensures r.Ok? ==> r.value.name == "nats"
    ensures existing.NoExisting? ==>
              && r.Ok?
              && r.value.app == UnmarshalCaddyfile(New(), blocks, parsers).0
              && r.value.err == UnmarshalCaddyfile(New(), blocks, parsers).1
    ensures existing.CaddyfileApp? && decode(existing.json).Ok? ==>
              && r.Ok?
              && r.value.app == UnmarshalCaddyfile(App(decode(existing.json).value), blocks, parsers).0
              && r.value.err == UnmarshalCaddyfile(App(decode(existing.json).value), blocks, parsers).1
  {
    var start :- match existing
      case NoExisting => Ok(New())
      case OtherValue => Err(UnexpectedExistingType)
      case CaddyfileApp(json) =>
        match decode(json)
        case Err(e) => Err(DecodeFailed(e))
        case Ok(servers) => Ok(App(servers));
    var (app, err) := UnmarshalCaddyfile(start, blocks, parsers);
    Ok(GlobalOption("nats", app, err))
  }

  /** A string subdirective succeeds exactly with one argument, and then
      sets its own field and nothing else; with none it changes nothing. */
  lemma StringDirective(s: NatsServer, d: string, args: seq<string>, parsers: Parsers)
    requires d in StringFields
    ensures var r := ApplyLine(s, Line(d, args), parsers);
            && (r.err.None? <==> |args| == 1)
            && (r.err.Some? ==> r.err.value == ArgErr(d))
            && r.leftover.None?
            && (|args| == 0 ==> r.server == s)
            && (|args| >= 1 ==>
                  && r.server == SetField(s, d, args[0])
                  && GetField(r.server, d) == args[0]
                  && forall other :: other in StringFields && other != d ==> GetField(r.server, other) == GetField(s, other))
  {
  }

  /** `subscribe` appends the parsed handler after the existing ones. */
  lemma SubscribeAppendsOne(s: NatsServer, line: Line, parsers: Parsers)
    requires line.directive == "subscribe"
    ensures var r := ApplyLine(s, line, parsers);
            && (r.err.None? <==> parsers.subscribe(line).Ok?)
            && (r.err.None? ==> r.server == s.(handlersRaw := s.handlersRaw + [parsers.subscribe(line).value]))
  {
  }

  /** `defaultTimeout` needs an argument that parses as a duration, and then
      sets the default timeout to the parsed value. */
  lemma DefaultTimeoutDirective(s: NatsServer, args: seq<string>, parsers: Parsers)
    ensures var r := ApplyLine(s, Line("defaultTimeout", args), parsers);
            && (|args| == 0 ==> r.err == Some(ArgErr("defaultTimeout")))
            && (|args| > 0 && parsers.duration(args[0]).None? ==> r.err == Some(BadDuration(args[0])))
            && (|args| > 0 && parsers.duration(args[0]).Some? ==>
                  r.err.None? && r.server == s.(defaultTimeout := parsers.duration(args[0])))
            && (|args| > 1 && parsers.duration(args[0]).Some? ==> r.leftover == Some(Line(args[1], args[2..])))
            && (|args| <= 1 ==> r.leftover.None?)
  {
    assert "defaultTimeout" !in StringFields;
  }

  /** `defaultTimeout` reads only one argument, so the next token on its line
      is read as the following subdirective, with the rest as its arguments. */
  lemma TimeoutLeftoverIsNextDirective(s: NatsServer, t: string, d: string, rest: seq<string>, more: seq<Line>, parsers: Parsers)
    requires parsers.duration(t).Some?
    ensures ApplyLines(s, [Line("defaultTimeout", [t, d] + rest)] + more, parsers)
            == ApplyLines(s.(defaultTimeout := parsers.duration(t)), [Line(d, rest)] + more, parsers)
  {
    var lines := [Line("defaultTimeout", [t, d] + rest)] + more;
    DefaultTimeoutDirective(s, [t, d] + rest, parsers);
    assert lines[0] == Line("defaultTimeout", [t, d] + rest);
    assert lines[1..] == more;
    assert ([t, d] + rest)[2..] == rest;
  }

  /** So a stray token after the duration is rejected as an unknown
      subdirective, after the timeout has been set. */
  lemma TimeoutTrailingTokenRejected(s: NatsServer, t: string, junk: string, parsers: Parsers)
    requires parsers.duration(t).Some?
    requires junk !in StringFields && junk != "subscribe" && junk != "defaultTimeout"
    ensures ApplyLines(s, [Line("defaultTimeout", [t, junk])], parsers)
            == (s.(defaultTimeout := parsers.duration(t)), Some(Unrecognized(junk)))
  {
    TimeoutLeftoverIsNextDirective(s, t, junk, [], [], parsers);
    assert [t, junk] + [] == [t, junk];
    assert [Line("defaultTimeout", [t, junk])] + [] == [Line("defaultTimeout", [t, junk])];
    UnknownDirectiveRejected(s.(defaultTimeout := parsers.duration(t)), Line(junk, []), parsers);
  }

  /** Any other subdirective is an error and changes nothing. */
  lemma UnknownDirectiveRejected(s: NatsServer, line: Line, parsers: Parsers)
    requires line.directive !in StringFields
    requires line.directive != "subscribe" && line.directive != "defaultTimeout"
    ensures ApplyLine(s, line, parsers) == LineResult(s, Some(Unrecognized(line.directive)), None)
  {
  }

  /** A block's lines apply to the existing record of its alias (or a fresh
      one), and a second argument after the alias is an error. */
  lemma BlockTargetsAlias(servers: map<string, NatsServer>, b: Block, parsers: Parsers)
    ensures var alias := BlockAlias(b);
            var base := if alias in servers then servers[alias] else EmptyServer();
            var r := ApplyBlock(servers, b, parsers);
            && (|b.args| > 1 ==> r.1 == Some(ArgErr("nats")) && r.0 == servers[alias := base])
            && (|b.args| <= 1 ==> r.0[alias] == ApplyLines(base, b.lines, parsers).0)
  {
  }

  lemma SingleLine(s: NatsServer, line: Line, parsers: Parsers)
    requires ApplyLine(s, line, parsers).err.None? && ApplyLine(s, line, parsers).leftover.None?
    ensures ApplyLines(s, [line], parsers) == (ApplyLine(s, line, parsers).server, None)
  {
    assert [line][1..] == [];
  }

  /** Two blocks for the same alias merge into one record: a field set by
      the first survives a second block that sets another field. */
  lemma RepeatedBlocksMerge(app: App, alias: string, f1: string, v1: string, f2: string, v2: string, parsers: Parsers)
    requires f1 in StringFields && f2 in StringFields && f1 != f2
    ensures var blocks := [Block([alias], [Line(f1, [v1])]), Block([alias], [Line(f2, [v2])])];
            var r := UnmarshalCaddyfile(app, blocks, parsers);
            && r.1.None?
            && GetField(r.0.servers[alias], f1) == v1
            && GetField(r.0.servers[alias], f2) == v2
  {
    var b1 := Block([alias], [Line(f1, [v1])]);
    var b2 := Block([alias], [Line(f2, [v2])]);
    var base1 := if alias in app.servers then app.servers[alias] else EmptyServer();
    SingleLine(base1, Line(f1, [v1]), parsers);
    var (s1, e1) := ApplyBlock(app.servers, b1, parsers);
    assert e1.None?;
    assert s1[alias] == SetField(base1, f1, v1);
    SingleLine(s1[alias], Line(f2, [v2]), parsers);
    var (s2, e2) := ApplyBlock(s1, b2, parsers);
    assert e2.None?;
    assert s2[alias] == SetField(s1[alias], f2, v2);
    assert UnmarshalCaddyfile(App(s1), [b2], parsers) == (App(s2), None);
    assert [b1, b2][1..] == [b2];
  }

  /** Only the servers the blocks name can change or appear, and on success
      each of them exists. */
  lemma {:induction false} UnmarshalTouchesNamedServers(app: App, blocks: seq<Block>, parsers: Parsers)
    ensures var r := UnmarshalCaddyfile(app, blocks, parsers);
            && r.0.servers.Keys <= app.servers.Keys + Aliases(blocks)
            && (r.1.None? ==> r.0.servers.Keys == app.servers.Keys + Aliases(blocks))
            && (forall k :: k in app.servers && k !in Aliases(blocks) ==> r.0.servers[k] == app.servers[k])
    decreases |blocks|
  {
    if blocks != [] {
      AliasesCons(blocks);
      var (servers, err) := ApplyBlock(app.servers, blocks[0], parsers);
      if err.None? {
        UnmarshalTouchesNamedServers(App(servers), blocks[1..], parsers);
      }
    } else {
      assert Aliases(blocks) == {};
    }
  }

  /** Lines that apply cleanly hand their server on to the lines after them. */
  lemma {:induction false} ApplyLinesConcat(s: NatsServer, pre: seq<Line>, rest: seq<Line>, parsers: Parsers)
    requires ApplyLines(s, pre, parsers).1.None?
    ensures ApplyLines(s, pre + rest, parsers) == ApplyLines(ApplyLines(s, pre, parsers).0, rest, parsers)
    decreases Tokens(pre)
  {
    if pre != [] {
      var out := ApplyLine(s, pre[0], parsers);
      assert (pre + rest)[0] == pre[0];
      assert (pre + rest)[1..] == pre[1..] + rest;
      var tail := if out.leftover.Some? then [out.leftover.value] + pre[1..] else pre[1..];
      assert Tokens(tail) < Tokens(pre) by {
        if out.leftover.Some? {
          assert Tokens([out.leftover.value] + pre[1..]) == 1 + |out.leftover.value.args| + Tokens(pre[1..]);
        }
      }
      var tail' := if out.leftover.Some? then [out.leftover.value] + (pre[1..] + rest) else pre[1..] + rest;
      assert tail' == tail + rest;
      ApplyLinesConcat(out.server, tail, rest, parsers);
    } else {
      assert pre + rest == rest;
    }
  }

  /** A failing line ends the block with its own error, whatever follows it:
      unknown or badly formed lines are rejected. */
  lemma ApplyLinesStopsAtFailure(s: NatsServer, pre: seq<Line>, bad: Line, post: seq<Line>, parsers: Parsers)
    requires ApplyLines(s, pre, parsers).1.None?
    requires ApplyLine(ApplyLines(s, pre, parsers).0, bad, parsers).err.Some?
    ensures var out := ApplyLine(ApplyLines(s, pre, parsers).0, bad, parsers);
            ApplyLines(s, pre + [bad] + post, parsers) == (out.server, out.err)
  {
    assert pre + [bad] + post == pre + ([bad] + post);
    ApplyLinesConcat(s, pre, [bad] + post, parsers);
    assert ([bad] + post)[0] == bad;
  }

  /** Blocks that apply cleanly hand their servers on to the blocks after them. */
  lemma {:induction false} UnmarshalConcat(app: App, pre: seq<Block>, rest: seq<Block>, parsers: Parsers)
    requires UnmarshalCaddyfile(app, pre, parsers).1.None?
    ensures UnmarshalCaddyfile(app, pre + rest, parsers)
            == UnmarshalCaddyfile(UnmarshalCaddyfile(app, pre, parsers).0, rest, parsers)
    decreases |pre|
  {
    if pre == [] {
      assert pre + rest == rest;
    } else {
      assert (pre + rest)[0] == pre[0];
      assert (pre + rest)[1..] == pre[1..] + rest;
      var (servers, err) := ApplyBlock(app.servers, pre[0], parsers);
      UnmarshalConcat(App(servers), pre[1..], rest, parsers);
    }
  }

  /** A failing block ends the parse with its own error; the blocks after it
      are not applied. */
  lemma UnmarshalStopsAtFailure(app: App, pre: seq<Block>, bad: Block, post: seq<Block>, parsers: Parsers)
    requires UnmarshalCaddyfile(app, pre, parsers).1.None?
    requires ApplyBlock(UnmarshalCaddyfile(app, pre, parsers).0.servers, bad, parsers).1.Some?
    ensures var out := ApplyBlock(UnmarshalCaddyfile(app, pre, parsers).0.servers, bad, parsers);
            UnmarshalCaddyfile(app, pre + [bad] + post, parsers) == (App(out.0), out.1)
  {
    assert pre + [bad] + post == pre + ([bad] + post);
    UnmarshalConcat(app, pre, [bad] + post, parsers);
    assert ([bad] + post)[0] == bad;
  }

  /** Block `n` is the first to fail: the blocks before it apply cleanly and
      it fails on the servers they produced. */
  predicate FailsAt(app: App, blocks: seq<Block>, n: nat, parsers: Parsers)
    requires n < |blocks|
  {
    var before := UnmarshalCaddyfile(app, blocks[..n], parsers);
    before.1.None? && ApplyBlock(before.0.servers, blocks[n], parsers).1.Some?
  }

  /** Unfolding the first block of a prefix. */
  lemma PrefixAfterFirstBlock(app: App, blocks: seq<Block>, n: nat, parsers: Parsers)
    requires n < |blocks|
    requires ApplyBlock(app.servers, blocks[0], parsers).1.None?
    ensures UnmarshalCaddyfile(app, blocks[..n + 1], parsers)
            == UnmarshalCaddyfile(App(ApplyBlock(app.servers, blocks[0], parsers).0), blocks[1..][..n], parsers)
  {
    var p := blocks[..n + 1];
    assert p[0] == blocks[0];
    assert p[1..] == blocks[1..][..n];
  }

  /** A failed parse names the block that failed first. */
  lemma {:induction false} UnmarshalFailureHasFirstBlock(app: App, blocks: seq<Block>, parsers: Parsers)
    returns (n: nat)
    requires UnmarshalCaddyfile(app, blocks, parsers).1.Some?
    ensures n < |blocks| && FailsAt(app, blocks, n, parsers)
    decreases |blocks|
  {
    assert blocks[..0] == [];
    var ab := ApplyBlock(app.servers, blocks[0], parsers);
    if ab.1.None? {
      var tail := blocks[1..];
      assert UnmarshalCaddyfile(app, blocks, parsers) == UnmarshalCaddyfile(App(ab.0), tail, parsers);
      var m := UnmarshalFailureHasFirstBlock(App(ab.0), tail, parsers);
      PrefixAfterFirstBlock(app, blocks, m, parsers);
      assert blocks[m + 1] == tail[m];
      n := m + 1;
    } else {
      n := 0;
    }
  }

  /** The parse fails exactly when some block is the first to fail, and the
      error is that block's. */
  lemma UnmarshalErrorIsFirstBlockError(app: App, blocks: seq<Block>, parsers: Parsers)
    ensures UnmarshalCaddyfile(app, blocks, parsers).1.Some? <==>
            exists n :: 0 <= n < |blocks| && FailsAt(app, blocks, n, parsers)
    ensures forall n :: 0 <= n < |blocks| && FailsAt(app, blocks, n, parsers) ==>
              UnmarshalCaddyfile(app, blocks, parsers).1
              == ApplyBlock(UnmarshalCaddyfile(app, blocks[..n], parsers).0.servers, blocks[n], parsers).1
  {
    if UnmarshalCaddyfile(app, blocks, parsers).1.Some? {
      var n := UnmarshalFailureHasFirstBlock(app, blocks, parsers);
    }
    forall n | 0 <= n < |blocks| && FailsAt(app, blocks, n, parsers)
      ensures UnmarshalCaddyfile(app, blocks, parsers).1
              == ApplyBlock(UnmarshalCaddyfile(app, blocks[..n], parsers).0.servers, blocks[n], parsers).1
    {
      assert blocks == blocks[..n] + [blocks[n]] + blocks[n + 1..];
      UnmarshalStopsAtFailure(app, blocks[..n], blocks[n], blocks[n + 1..], parsers);
    }
  }

  /** A `nats` option whose block holds an unknown subdirective is emitted
      with that subdirective's error. */
  lemma UnknownDirectiveFailsOption(alias: seq<string>, line: Line, parsers: Parsers,
                                    decode: string -> Result<map<string, NatsServer>, string>)
    requires |alias| <= 1
    requires line.directive !in StringFields
    requires line.directive != "subscribe" && line.directive != "defaultTimeout"
    ensures ParseGlobalNatsOption(NoExisting, [Block(alias, [line])], parsers, decode).value.err
            == Some(Unrecognized(line.directive))
  {
    var b := Block(alias, [line]);
    assert BlockAlias(b) !in New().servers;
    var base := EmptyServer();
    assert ApplyLine(base, line, parsers).err == Some(Unrecognized(line.directive));
    assert ApplyLines(base, [line], parsers).1 == Some(Unrecognized(line.directive));
  }
}

=== FILE: header_logging.dfy ===
/** Redaction of header values before they are logged.  The list of header
    names to mask comes from a comma-separated configuration value, which is
    passed in explicitly instead of being read once from the environment. */
module HeaderLogging {
  import opened Results
  import opened Text
  import opened Headers

  /** The value every masked header value is replaced with. */
  const Mask: string := "***"

  /** Trims, drops empty entries and lowers each configured part, in order. */
  function NormalizeParts(parts: seq<string>): (list: seq<string>)
    ensures forall x :: x in list <==>
              exists p :: p in parts && TrimSpace(p) != "" && x == Lower(TrimSpace(p))
    ensures |list| <= |parts|
  {
    if parts == [] then []
    else
      var t := TrimSpace(parts[0]);
      var rest := NormalizeParts(parts[1..]);
      assert forall p :: p in parts[1..] ==> p in parts;
      assert forall p :: p in parts ==> p == parts[0] || p in parts[1..];
      if t != "" then [Lower(t)] + rest else rest
  }

  /** The redaction list parsed from the raw configuration value: split on
      commas, trimmed, empty entries dropped, lower-cased.  An empty value
      gives an empty list. */
  function ParseRedactList(config: string): (list: seq<string>)
    ensures config == "" ==> list == []
    ensures forall x :: x in list <==>
              exists p :: p in Split(config, ',') && TrimSpace(p) != "" && x == Lower(TrimSpace(p))
  {
    if config == "" then
      assert Split(config, ',') == [""];
      []
    else NormalizeParts(Split(config, ','))
  }

  /** Every entry of a parsed list is non-empty and already lower-case. */
  lemma ParsedEntriesAreLowerCase(config: string, x: string)
    ensures x in ParseRedactList(config) ==> x != "" && Lower(x) == x
  {
    if x in ParseRedactList(config) {
      var p :| p in Split(config, ',') && TrimSpace(p) != "" && x == Lower(TrimSpace(p));
      LowerIdempotent(TrimSpace(p));
    }
  }

  /** Whether a header of this name is masked: its lower-cased name is listed. */
  predicate Redacts(list: seq<string>, name: string) {
    Lower(name) in list
  }

  /** `shouldRedact`: a linear scan of the list for the lower-cased name. */
  method ShouldRedact(list: seq<string>, name: string) returns (found: bool)
    ensures found <==> Redacts(list, name)
  {
    var lower := Lower(name);
    var i := 0;
    while i < |list|
      invariant 0 <= i <= |list|
      invariant lower !in list[..i]
    {
      if list[i] == lower {
        return true;
      }
      assert list[..i + 1] == list[..i] + [list[i]];
      i := i + 1;
    }
    assert list[..i] == list;
    return false;
  }

  /** Matching ignores case on the header-name side. */
  lemma RedactsIgnoresCase(list: seq<string>, a: string, b: string)
    requires EqualFold(a, b)
    ensures Redacts(list, a) <==> Redacts(list, b)
  {
    LowerEqualIffEqualFold(a, b);
  }

  /** Matching against a parsed configuration ignores case on both sides: a
      header is masked exactly when some non-blank configured entry equals its
      name up to case and surrounding white space. */
  lemma RedactsConfiguredNameAnyCase(config: string, name: string)
    ensures Redacts(ParseRedactList(config), name) <==>
            exists p :: p in Split(config, ',') && TrimSpace(p) != "" && EqualFold(TrimSpace(p), name)
  {
    forall p | p in Split(config, ',')
      ensures Lower(name) == Lower(TrimSpace(p)) <==> EqualFold(TrimSpace(p), name)
    {
      LowerEqualIffEqualFold(TrimSpace(p), name);
    }
  }

  /** As many mask strings as there are values. */
  function MaskAll(values: seq<string>): (masked: seq<string>)
    ensures |masked| == |values|
    ensures forall i :: 0 <= i < |masked| ==> masked[i] == Mask
  {
    seq(|values|, _ => Mask)
  }

  /** `RedactHeaders`: a fresh map with the same keys in which every value of a
      listed header is masked and every other header keeps its values.  A nil
      map (`None`) stays nil. */
  function RedactHeaders(list: seq<string>, headers: Option<Header>): (r: Option<Header>)
    ensures headers.None? <==> r.None?
    ensures headers.Some? ==> r.value.Keys == headers.value.Keys
    ensures headers.Some? ==> forall k :: k in headers.value && Redacts(list, k) ==>
              |r.value[k]| == |headers.value[k]| &&
              forall i :: 0 <= i < |r.value[k]| ==> r.value[k][i] == Mask
    ensures headers.Some? ==> forall k :: k in headers.value && !Redacts(list, k) ==>
              r.value[k] == headers.value[k]
  {
    match headers
    case None => None
    case Some(h) => Some(map k | k in h :: if Redacts(list, k) then MaskAll(h[k]) else h[k])
  }

  /** Masking an already masked map changes nothing. */
  lemma RedactIdempotent(list: seq<string>, headers: Option<Header>)
    ensures RedactHeaders(list, RedactHeaders(list, headers)) == RedactHeaders(list, headers)
  {
    if headers.Some? {
      var once := RedactHeaders(list, headers).value;
      var twice := RedactHeaders(list, Some(once)).value;
      forall k | k in twice
        ensures twice[k] == once[k]
      {
        if Redacts(list, k) {
          assert MaskAll(once[k]) == once[k];
        }
      }
      assert twice == once;
    }
  }

  /** With no configured names nothing is masked: the output equals the input. */
  lemma EmptyConfigRedactsNothing(headers: Option<Header>)
    ensures RedactHeaders(ParseRedactList(""), headers) == headers
  {
    if headers.Some? {
      var h := headers.value;
      var r := RedactHeaders(ParseRedactList(""), headers).value;
      assert forall k :: !Redacts([], k);
      assert forall k :: k in r ==> r[k] == h[k];
      assert r == h;
    }
  }
}

=== FILE: headers.dfy ===
/** Multi-valued header maps as the bridge handles them: Go's `http.Header`
    and `nats.Header`, both `map[string][]string`.  Keys are compared
    exactly, as `nats.Header.Add` and `nats.Header.Get` do. */
module Headers {

  type Header = map<string, seq<string>>

  /** All values stored under `k`, none when `k` is absent. */
  function Values(h: Header, k: string): seq<string> {
    if k in h then h[k] else []
  }

  /** The first value under `k`, or "" (`nats.Header.Get`). */
  function Get(h: Header, k: string): (v: string)
    ensures v != "" ==> Values(h, k) != [] && v == Values(h, k)[0]
    ensures Values(h, k) != [] ==> v == Values(h, k)[0]
  {
    if Values(h, k) == [] then "" else Values(h, k)[0]
  }

  /** `Header.Add`: appends `v` to the values of `k`, creating the key if needed. */
  function Add(h: Header, k: string, v: string): (r: Header)
    ensures r.Keys == h.Keys + {k}
    ensures Values(r, k) == Values(h, k) + [v]
    ensures forall j :: j != k ==> Values(r, j) == Values(h, j)
  {
    h[k := Values(h, k) + [v]]
  }

  /** Calls `Add(h, k, v)` for every `v` of `vs` in order. */
  function AddAll(h: Header, k: string, vs: seq<string>): Header
    decreases |vs|
  {
    if vs == [] then h else AddAll(Add(h, k, vs[0]), k, vs[1..])
  }

  /** Adding the values one at a time appends them, in order, to the key's
      list; an empty list adds nothing, not even the key. */
  lemma {:induction false} AddAllAppends(h: Header, k: string, vs: seq<string>)
    ensures AddAll(h, k, vs) == if vs == [] then h else h[k := Values(h, k) + vs]
    decreases |vs|
  {
    if vs != [] {
      var h' := Add(h, k, vs[0]);
      AddAllAppends(h', k, vs[1..]);
      if vs[1..] == [] {
        assert vs == [vs[0]];
      } else {
        assert Values(h', k) + vs[1..] == Values(h, k) + vs;
        assert h'[k := Values(h, k) + vs] == h[k := Values(h, k) + vs];
      }
    }
  }

  /** The keys of `src` that carry at least one value. */
  function NonEmptyKeys(src: Header): set<string> {
    set k | k in src && src[k] != []
  }

  /** Every value of `src` appended after the values `dst` already has
      under the same key; keys of `src` with no values are not created. */
  function Merge(dst: Header, src: Header): (r: Header)
    ensures r.Keys == dst.Keys + NonEmptyKeys(src)
    ensures forall k :: k in r ==> r[k] == Values(dst, k) + Values(src, k)
  {
    map k | k in dst.Keys + NonEmptyKeys(src) :: Values(dst, k) + Values(src, k)
  }

  /** The copy loop `for k, vs := range src { for _, v := range vs { dst.Add(k, v) } }`
      with the map's iteration order made explicit as `keys`. */
  function CopyInOrder(dst: Header, src: Header, keys: seq<string>): (r: Header)
    requires forall i :: 0 <= i < |keys| ==> keys[i] in src
    ensures forall j :: j !in keys ==> Values(r, j) == Values(dst, j)
    decreases |keys|
  {
    if keys == [] then dst
    else
      AddAllAppends(dst, keys[0], src[keys[0]]);
      CopyInOrder(AddAll(dst, keys[0], src[keys[0]]), src, keys[1..])
  }

  predicate Distinct<T(==)>(xs: seq<T>) {
    forall i, j :: 0 <= i < j < |xs| ==> xs[i] != xs[j]
  }

  /** `src` cut down to the keys listed in `keys`. */
  function Restrict(src: Header, keys: seq<string>): (r: Header)
    ensures r.Keys <= src.Keys
  {
    map k | k in src && k in keys :: src[k]
  }

  lemma {:induction false} CopyInOrderIsMergeOfListed(dst: Header, src: Header, keys: seq<string>)
    requires forall i :: 0 <= i < |keys| ==> keys[i] in src
    requires Distinct(keys)
    ensures CopyInOrder(dst, src, keys) == Merge(dst, Restrict(src, keys))
    decreases |keys|
  {
    if keys == [] {
      assert Restrict(src, keys) == map[];
      var m := Merge(dst, map[]);
      assert NonEmptyKeys(map[]) == {};
      assert forall j :: j in m ==> m[j] == dst[j];
    } else {
      var k := keys[0];
      AddAllAppends(dst, k, src[k]);
      CopyInOrderIsMergeOfListed(AddAll(dst, k, src[k]), src, keys[1..]);
      assert k !in keys[1..];
      assert Restrict(src, keys) == Restrict(src, keys[1..])[k := src[k]];
      MergeStep(dst, Restrict(src, keys[1..]), k, src[k]);
    }
  }

  /** Merging one more key first is the same as merging it along with the rest. */
  lemma MergeStep(dst: Header, rest: Header, k: string, vs: seq<string>)
    requires k !in rest
    ensures Merge(if vs == [] then dst else dst[k := Values(dst, k) + vs], rest)
         == Merge(dst, rest[k := vs])
  {
    var rest' := rest[k := vs];
    var d' := if vs == [] then dst else dst[k := Values(dst, k) + vs];
    NonEmptyKeysUpdate(rest, k, vs);
    var lhs := Merge(d', rest);
    var rhs := Merge(dst, rest');
    assert lhs.Keys == rhs.Keys;
    forall j | j in lhs
      ensures lhs[j] == rhs[j]
    {
      if j == k {
        assert Values(rest, j) == [];
        assert Values(rest', j) == vs;
      } else {
        assert Values(rest', j) == Values(rest, j);
        assert Values(d', j) == Values(dst, j);
      }
    }
    assert lhs == rhs;
  }

  lemma NonEmptyKeysUpdate(rest: Header, k: string, vs: seq<string>)
    requires k !in rest
    ensures NonEmptyKeys(rest[k := vs]) == NonEmptyKeys(rest) + (if vs == [] then {} else {k})
  {
  }

  /** Whatever order the copy loop visits the keys in, the outcome is `Merge`. */
  lemma CopyInAnyOrderIsMerge(dst: Header, src: Header, keys: seq<string>)
    requires Distinct(keys)
    requires forall i :: 0 <= i < |keys| ==> keys[i] in src
    requires forall k :: k in src ==> k in keys
    ensures CopyInOrder(dst, src, keys) == Merge(dst, src)
  {
    CopyInOrderIsMergeOfListed(dst, src, keys);
    assert Restrict(src, keys) == src;
  }
}

=== FILE: http_msg_to_nats_msg.dfy ===
/** Translation of an inbound HTTP request into the bus message sent to the
    responder: the subject is checked for forbidden characters, the request
    headers are carried over with extra context headers and three synthetic
    headers appended, and the body bytes become the message data. */
module HttpToNats {
  import opened Results
  import opened Headers

  newtype uint8 = x: int | 0 <= x < 0x100

  /** Characters a subject may not contain (`invalidChars`).  Other white
      space such as tabs and newlines is not rejected. */
  const InvalidChars: set<char> := {'>', '$', ' '}

  const MethodHeader: string := "X-NatsBridge-Method"
  const UrlPathHeader: string := "X-NatsBridge-UrlPath"
  const UrlQueryHeader: string := "X-NatsBridge-UrlQuery"

  /** What reading the request body to the end produced: the bytes read, and
      whether the read stopped on an error. */
  datatype BodyRead = BodyRead(bytes: seq<uint8>, failed: bool)

  /** The parts of an `http.Request` the translation reads: `verb` is the
      request method, and `rawQuery` is
      "" when the URL has no query. */
  datatype HttpRequest = HttpRequest(
    verb: string,
    path: string,
    rawQuery: string,
    header: Header,
    body: BodyRead)

  /** A bus message (`nats.Msg`). */
  datatype Msg = Msg(subject: string, header: Header, data: seq<uint8>)

  datatype TranslateError = InvalidSubject(subject: string)

  predicate ValidSubject(subject: string) {
    forall i :: 0 <= i < |subject| ==> subject[i] !in InvalidChars
  }

  /** The character-by-character scan of the subject, stopping at the first
      forbidden character. */
  method CheckSubject(subject: string) returns (ok: bool)
    ensures ok <==> ValidSubject(subject)
  {
    var i := 0;
    while i < |subject|
      invariant 0 <= i <= |subject|
      invariant forall j :: 0 <= j < i ==> subject[j] !in InvalidChars
    {
      if subject[i] in InvalidChars {
        return false;
      }
      i := i + 1;
    }
    return true;
  }

  /** The context extras as a header map with one value per key. */
  function Singletons(extras: map<string, string>): (h: Header)
    ensures h.Keys == extras.Keys
    ensures forall k :: k in h ==> h[k] == [extras[k]]
  {
    map k | k in extras :: [extras[k]]
  }

  /** The request headers followed, key by key, by the context extras. */
  function WithExtras(header: Header, extras: map<string, string>): Header {
    Merge(header, Singletons(extras))
  }

  /** The message headers: request headers, then extras, then the method,
      URL path and raw query, each appended with `Add`. */
  function MessageHeader(r: HttpRequest, extras: map<string, string>): (m: Header)
    ensures m.Keys == r.header.Keys + extras.Keys + {MethodHeader, UrlPathHeader, UrlQueryHeader}
  {
    assert NonEmptyKeys(Singletons(extras)) == extras.Keys;
    var h := WithExtras(r.header, extras);
    Add(Add(Add(h, MethodHeader, r.verb), UrlPathHeader, r.path), UrlQueryHeader, r.rawQuery)
  }

  /** `NatsMsgForHttpRequest`, with `subject` the subject after placeholder
      substitution and `extras` the headers taken from the request context. */
  function NatsMsgForHttpRequest(r: HttpRequest, subject: string, extras: map<string, string>)
    : (res: Result<Msg, TranslateError>)
    ensures res.Err? <==> !ValidSubject(subject)
    ensures res.Err? ==> res.error == InvalidSubject(subject)
    ensures res.Ok? ==> res.value.subject == subject
    ensures res.Ok? ==> res.value.data == r.body.bytes
  {
    if !ValidSubject(subject) then Err(InvalidSubject(subject))
    else Ok(Msg(subject, MessageHeader(r, extras), r.body.bytes))
  }

  /** A body read error does not stop the translation: the bytes read so far
      become the data either way. */
  lemma BodyReadErrorIgnored(r: HttpRequest, subject: string, extras: map<string, string>)
    requires ValidSubject(subject)
    ensures var failed := r.(body := BodyRead(r.body.bytes, true));
            var clean := r.(body := BodyRead(r.body.bytes, false));
            NatsMsgForHttpRequest(failed, subject, extras) == NatsMsgForHttpRequest(clean, subject, extras)
  {
  }

  /** The value the message adds under `k` after the request's own values:
      the context extra, if any, then the synthetic value, if `k` is one of
      the three synthetic names. */
  function Appended(r: HttpRequest, extras: map<string, string>, k: string): seq<string> {
    (if k in extras then [extras[k]] else [])
    + (if k == MethodHeader then [r.verb] else [])
    + (if k == UrlPathHeader then [r.path] else [])
    + (if k == UrlQueryHeader then [r.rawQuery] else [])
  }

  /** Every request header keeps all its values, in order, at the front of
      the message's list for that key; only extras and synthetic values
      follow them, and no other key appears. */
  lemma MessageHeaderValues(r: HttpRequest, extras: map<string, string>, k: string)
    ensures Values(MessageHeader(r, extras), k) == Values(r.header, k) + Appended(r, extras, k)
    ensures k in MessageHeader(r, extras) <==>
            k in r.header || k in extras || k in {MethodHeader, UrlPathHeader, UrlQueryHeader}
  {
    var h := WithExtras(r.header, extras);
    var h1 := Add(h, MethodHeader, r.verb);
    var h2 := Add(h1, UrlPathHeader, r.path);
    var h3 := Add(h2, UrlQueryHeader, r.rawQuery);
    assert NonEmptyKeys(Singletons(extras)) == extras.Keys;
    var e := if k in extras then [extras[k]] else [];
    var m := if k == MethodHeader then [r.verb] else [];
    var p := if k == UrlPathHeader then [r.path] else [];
    var q := if k == UrlQueryHeader then [r.rawQuery] else [];
    assert Values(h, k) == Values(r.header, k) + e;
    assert Values(h1, k) == Values(h, k) + m;
    assert Values(h2, k) == Values(h1, k) + p;
    assert Values(h3, k) == Values(h2, k) + q;
    assert Appended(r, extras, k) == e + m + p + q;
    assert MessageHeader(r, extras) == h3;
    ConcatAssoc(Values(r.header, k), e, m, p, q);
    assert h3.Keys == r.header.Keys + extras.Keys + {MethodHeader, UrlPathHeader, UrlQueryHeader};
  }

  /** The same, stated of the message a valid subject yields. */
  lemma TranslatedHeaderValues(r: HttpRequest, subject: string, extras: map<string, string>, k: string)
    requires ValidSubject(subject)
    ensures var h := NatsMsgForHttpRequest(r, subject, extras).value.header;
            && Values(h, k) == Values(r.header, k) + Appended(r, extras, k)
            && (k in h <==> k in r.header || k in extras || k in {MethodHeader, UrlPathHeader, UrlQueryHeader})
  {
    MessageHeaderValues(r, extras, k);
  }

  lemma ConcatAssoc<T>(a: seq<T>, b: seq<T>, c: seq<T>, d: seq<T>, e: seq<T>)
    ensures a + b + c + d + e == a + (b + c + d + e)
  {
  }

  /** After translation the last values of the synthetic headers are the
      request method, the URL path and the raw query. */
  lemma SyntheticHeadersLast(r: HttpRequest, subject: string, extras: map<string, string>)
    requires ValidSubject(subject)
    ensures var h := NatsMsgForHttpRequest(r, subject, extras).value.header;
            && Values(h, MethodHeader) != [] && Values(h, MethodHeader)[|Values(h, MethodHeader)| - 1] == r.verb
            && Values(h, UrlPathHeader) != [] && Values(h, UrlPathHeader)[|Values(h, UrlPathHeader)| - 1] == r.path
            && Values(h, UrlQueryHeader) != [] && Values(h, UrlQueryHeader)[|Values(h, UrlQueryHeader)| - 1] == r.rawQuery
  {
    MessageHeaderValues(r, extras, MethodHeader);
    MessageHeaderValues(r, extras, UrlPathHeader);
    MessageHeaderValues(r, extras, UrlQueryHeader);
  }

  /** Synthetic headers are appended, not overwritten: a value already stored
      under the exact key `X-NatsBridge-Method` (one set by Go code, say)
      stays first, so `Get` still returns it. */
  lemma CallerSyntheticValueSurvives(r: HttpRequest, subject: string, extras: map<string, string>)
    requires ValidSubject(subject)
    requires Values(r.header, MethodHeader) != []
    ensures Get(NatsMsgForHttpRequest(r, subject, extras).value.header, MethodHeader)
            == r.header[MethodHeader][0]
  {
    MessageHeaderValues(r, extras, MethodHeader);
  }

  /** The Go loop `for k, v := range extras { headers.Add(k, v) }` gives the
      same headers whatever order the extras are visited in. */
  lemma ExtrasInAnyOrder(header: Header, extras: map<string, string>, keys: seq<string>)
    requires Distinct(keys)
    requires forall i :: 0 <= i < |keys| ==> keys[i] in extras
    requires forall k :: k in extras ==> k in keys
    ensures CopyInOrder(header, Singletons(extras), keys) == WithExtras(header, extras)
  {
    CopyInAnyOrderIsMerge(header, Singletons(extras), keys);
  }
}

=== FILE: nats_bridge_app.dfy ===
/** The bus-connection app: a map from server alias to server record,
    provisioned (default timeouts filled, handler modules loaded), started
    (connected and subscribed) and stopped (unsubscribed and closed).  All
    bus and module-loading effects are supplied as pure functions; the Go
    map's iteration order is an explicit enumeration `order` of its keys. */
module NatsBridgeApp {
  import opened Results
  import Headers

  /** One second in `time.Duration` units (nanoseconds). */
  const Second: int := 1_000_000_000

  /** The package default used when a server has no default timeout. */
  const DefaultTimeout: int := 60 * Second

  /** A handler module as configured (its JSON form, left uninterpreted). */
  type RawHandler = string

  /** A decoded bus-side handler; only its identity matters here. */
  datatype Handler = Handler(name: string)

  /** Options passed to `nats.Connect`. */
  datatype ConnectOption =
    | UserJwtAndSeed(jwt: string, seed: string)
    | Name(name: string)
    | CustomInboxPrefix(prefix: string)
    | UserCredentials(file: string)
    | NkeyFromSeedFile(file: string)
    | MaxReconnects(n: int)

  /** A server's bus connection: never opened (a nil `*nats.Conn`), open, or closed. */
  datatype Conn = NoConn | Open(url: string, options: seq<ConnectOption>) | Closed(url: string, options: seq<ConnectOption>)

  /** `NatsServer`.  `subscribed` holds the indices into `handlers` whose
      subscription is currently live. */
  datatype NatsServer = NatsServer(
    url: string,
    userCredentialFile: string,
    nkeyCredentialFile: string,
    jwt: string,
    seed: string,
    clientName: string,
    inboxPrefix: string,
    defaultTimeout: Option<int>,
    handlersRaw: seq<RawHandler>,
    handlers: seq<Handler>,
    conn: Conn,
    subscribed: set<nat>)

  /** `&NatsServer{}`: every field at its zero value. */
  function EmptyServer(): NatsServer {
    NatsServer("", "", "", "", "", "", "", None, [], [], NoConn, {})
  }

  datatype App = App(servers: map<string, NatsServer>)

  datatype AppError =
    | HandlerLoadFailed(alias: string, reason: string)
    | NkeyLoadFailed(file: string)
    | ConnectFailed(url: string)
    | SubscribeFailed(alias: string, index: nat)
    | UnsubscribeFailed(alias: string, index: nat)

  /** The effects of the bus client, as outcomes: whether the nkey seed file
      loads, whether a connect with these options succeeds, whether a
      handler's subscribe or unsubscribe on the alias's connection succeeds. */
  datatype BusEnv = BusEnv(
    nkeyLoads: string -> bool,
    connects: (string, seq<ConnectOption>) -> bool,
    subscribes: (string, Handler) -> bool,
    unsubscribes: (string, Handler) -> bool)

  /** `order` lists every key of `m` exactly once (a Go map iteration). */
  predicate IsEnumeration<V>(order: seq<string>, m: map<string, V>) {
    && Headers.Distinct(order)
    && (forall i :: 0 <= i < |order| ==> order[i] in m)
    && (forall k :: k in m ==> k in order)
  }

  /** `CaddyModule().New`: an app with no servers. */
  function New(): (app: App)
    ensures app.servers == map[]
  {
    App(map[])
  }

  // ---------------------------------------------------------------------------
  // Provision
  // ---------------------------------------------------------------------------

  /** A nil default timeout becomes the package default; a set one, zero
      included, is kept. */
  function FillDefaultTimeout(s: NatsServer): (s': NatsServer)
    ensures s'.defaultTimeout.Some?
    ensures s.defaultTimeout.Some? ==> s' == s
    ensures s.defaultTimeout.None? ==> s' == s.(defaultTimeout := Some(DefaultTimeout))
  {
    if s.defaultTimeout.None? then s.(defaultTimeout := Some(DefaultTimeout)) else s
  }

  /** `ctx.LoadModule` over a handler list: every entry decoded in order, the
      first failure aborting the load with its reason. */
  function LoadAll(raw: seq<RawHandler>, load: RawHandler -> Result<Handler, string>)
    : (r: Result<seq<Handler>, string>)
    ensures r.Ok? ==> |r.value| == |raw| && forall i :: 0 <= i < |raw| ==> load(raw[i]) == Ok(r.value[i])
    ensures r.Err? ==> exists i :: 0 <= i < |raw| && load(raw[i]) == Err(r.error)
                                   && forall j :: 0 <= j < i ==> load(raw[j]).Ok?
    ensures r.Ok? <==> forall i :: 0 <= i < |raw| ==> load(raw[i]).Ok?
  {
    if raw == [] then Ok([])
    else match load(raw[0])
      case Err(e) => Err(e)
      case Ok(h) =>
        match LoadAll(raw[1..], load)
        case Err(e) =>
          assert forall i :: 1 <= i < |raw| ==> raw[i] == raw[1..][i - 1];
          Err(e)
        case Ok(hs) =>
          assert forall i :: 1 <= i < |raw| ==> raw[i] == raw[1..][i - 1];
          Ok([h] + hs)
  }

  /** A server whose handler list loaded: the decoded handlers appended. */
  function WithLoaded(s: NatsServer, load: RawHandler -> Result<Handler, string>): NatsServer
    requires LoadAll(s.handlersRaw, load).Ok?
  {
    s.(handlers := s.handlers + LoadAll(s.handlersRaw, load).value)
  }

  /** The second loop of `Provision`, over the servers in `order`: each
      non-empty handler list is loaded and appended, and the first failure
      aborts with an error naming the server. */
  function LoadHandlers(servers: map<string, NatsServer>, order: seq<string>,
                        load: RawHandler -> Result<Handler, string>)
    : (r: Result<map<string, NatsServer>, AppError>)
    requires Headers.Distinct(order)
    requires forall i :: 0 <= i < |order| ==> order[i] in servers
    ensures r.Ok? <==> forall i :: 0 <= i < |order| ==> LoadAll(servers[order[i]].handlersRaw, load).Ok?
    ensures r.Ok? ==> r.value.Keys == servers.Keys
    ensures r.Ok? ==> forall k :: k in servers && k in order ==> r.value[k] == WithLoaded(servers[k], load)
    ensures r.Ok? ==> forall k :: k in servers && k !in order ==> r.value[k] == servers[k]
    ensures r.Err? ==> r.error.HandlerLoadFailed? && r.error.alias in order
    decreases |order|
  {
    if order == [] then Ok(servers)
    else
      var a := order[0];
      var s := servers[a];
      if s.handlersRaw == [] then
        assert WithLoaded(s, load) == s;
        LoadHandlers(servers, order[1..], load)
      else match LoadAll(s.handlersRaw, load)
        case Err(e) => Err(HandlerLoadFailed(a, e))
        case Ok(hs) =>
          var servers' := servers[a := WithLoaded(s, load)];
          assert forall i :: 1 <= i < |order| ==> order[i] != a && servers'[order[i]].handlersRaw == servers[order[i]].handlersRaw;
          LoadHandlers(servers', order[1..], load)
  }

  /** `Provision`: fill every server's default timeout, then load handlers. */
  function Provision(app: App, order: seq<string>, load: RawHandler -> Result<Handler, string>)
    : (r: Result<App, AppError>)
    requires IsEnumeration(order, app.servers)
    ensures r.Ok? <==> forall k :: k in app.servers ==> LoadAll(app.servers[k].handlersRaw, load).Ok?
    ensures r.Ok? ==> r.value.servers.Keys == app.servers.Keys
    ensures r.Ok? ==> forall k :: k in app.servers ==>
              r.value.servers[k] == WithLoaded(FillDefaultTimeout(app.servers[k]), load)
  {
    var filled := map k | k in app.servers :: FillDefaultTimeout(app.servers[k]);
    match LoadHandlers(filled, order, load)
    case Err(e) => Err(e)
    case Ok(servers) => Ok(App(servers))
  }

  /** After a successful `Provision` every server has a default timeout: the
      configured one if there was one, else the package default. */
  lemma ProvisionFillsTimeouts(app: App, order: seq<string>, load: RawHandler -> Result<Handler, string>, k: string)
    requires IsEnumeration(order, app.servers)
    requires k in app.servers
    ensures Provision(app, order, load).Ok? ==>
              Provision(app, order, load).value.servers[k].defaultTimeout
              == Some(app.servers[k].defaultTimeout.GetOr(DefaultTimeout))
  {
  }

  // ---------------------------------------------------------------------------
  // Start and Stop
  // ---------------------------------------------------------------------------

  /** A state reached by a lifecycle step, and the error it returned, if any. */
  datatype Step<T> = Step(state: T, err: Option<AppError>)

  /** A loop over the servers `order[i..]` that runs `step` on each server,
      stores the server it returns, and returns at the first error. */
  function ForEachServerFrom(acc: map<string, NatsServer>, order: seq<string>, i: nat,
                             step: (string, NatsServer) -> Step<NatsServer>)
    : (r: Step<map<string, NatsServer>>)
    requires i <= |order|
    requires forall m :: 0 <= m < |order| ==> order[m] in acc
    ensures r.state.Keys == acc.Keys
    decreases |order| - i
  {
    if i == |order| then Step(acc, None)
    else
      var out := step(order[i], acc[order[i]]);
      if out.err.Some? then Step(acc[order[i] := out.state], out.err)
      else ForEachServerFrom(acc[order[i] := out.state], order, i + 1, step)
  }

  /** Each server ends either as it was or as `step` left it. */
  lemma {:induction false} ForEachServerKeyWise(acc: map<string, NatsServer>, order: seq<string>, i: nat,
                                                step: (string, NatsServer) -> Step<NatsServer>)
    requires i <= |order| && Headers.Distinct(order)
    requires forall m :: 0 <= m < |order| ==> order[m] in acc
    ensures var r := ForEachServerFrom(acc, order, i, step);
            forall k :: k in acc ==> r.state[k] == acc[k] || r.state[k] == step(k, acc[k]).state
    decreases |order| - i
  {
    if i < |order| {
      var a := order[i];
      var out := step(a, acc[a]);
      var acc' := acc[a := out.state];
      if out.err.None? {
        ForEachServerKeyWise(acc', order, i + 1, step);
        var r := ForEachServerFrom(acc', order, i + 1, step);
        assert r.state[a] == acc'[a] || r.state[a] == step(a, acc'[a]).state;
        if r.state[a] != acc'[a] {
          // a is never visited again, so the loop cannot have changed it
          ForEachServerUntouched(acc', order, i + 1, step, a);
        }
      }
    }
  }

  /** A server not in `order[i..]` is not touched by the loop. */
  lemma {:induction false} ForEachServerUntouched(acc: map<string, NatsServer>, order: seq<string>, i: nat,
                                                  step: (string, NatsServer) -> Step<NatsServer>, k: string)
    requires i <= |order|
    requires forall m :: 0 <= m < |order| ==> order[m] in acc
    requires k in acc && forall m :: i <= m < |order| ==> order[m] != k
    ensures ForEachServerFrom(acc, order, i, step).state[k] == acc[k]
    decreases |order| - i
  {
    if i < |order| {
      var out := step(order[i], acc[order[i]]);
      if out.err.None? {
        ForEachServerUntouched(acc[order[i] := out.state], order, i + 1, step, k);
      }
    }
  }

  /** The loop returns no error exactly when every step succeeds, and then
      every server is as its step left it. */
  lemma {:induction false} ForEachServerAllOk(acc: map<string, NatsServer>, order: seq<string>, i: nat,
                                              step: (string, NatsServer) -> Step<NatsServer>)
    requires i <= |order| && Headers.Distinct(order)
    requires forall m :: 0 <= m < |order| ==> order[m] in acc
    ensures var r := ForEachServerFrom(acc, order, i, step);
            r.err.None? <==> forall m :: i <= m < |order| ==> step(order[m], acc[order[m]]).err.None?
    ensures var r := ForEachServerFrom(acc, order, i, step);
            r.err.None? ==> forall m :: i <= m < |order| ==> r.state[order[m]] == step(order[m], acc[order[m]]).state
    decreases |order| - i
  {
    if i < |order| {
      var a := order[i];
      var out := step(a, acc[a]);
      var acc' := acc[a := out.state];
      if out.err.None? {
        ForEachServerAllOk(acc', order, i + 1, step);
        assert forall m :: i < m < |order| ==> acc'[order[m]] == acc[order[m]];
        ForEachServerUntouched(acc', order, i + 1, step, a);
      }
    }
  }

  /** On an error, the error is that of the first failing step; the servers
      up to and including it hold their step's state (nothing is rolled
      back), and the servers after it in `order` are untouched. */
  lemma {:induction false} ForEachServerFirstError(acc: map<string, NatsServer>, order: seq<string>, i: nat,
                                                   step: (string, NatsServer) -> Step<NatsServer>)
    returns (f: nat)
    requires i <= |order| && Headers.Distinct(order)
    requires forall m :: 0 <= m < |order| ==> order[m] in acc
    requires ForEachServerFrom(acc, order, i, step).err.Some?
    ensures var r := ForEachServerFrom(acc, order, i, step);
            && i <= f < |order|
            && r.err == step(order[f], acc[order[f]]).err
            && (forall m :: i <= m < f ==> step(order[m], acc[order[m]]).err.None?)
            && (forall m :: i <= m <= f ==> r.state[order[m]] == step(order[m], acc[order[m]]).state)
            && (forall m :: f < m < |order| ==> r.state[order[m]] == acc[order[m]])
    decreases |order| - i
  {
    var a := order[i];
    var out := step(a, acc[a]);
    var acc' := acc[a := out.state];
    var r := ForEachServerFrom(acc, order, i, step);
    if out.err.Some? {
      f := i;
      assert forall m :: i < m < |order| ==> r.state[order[m]] == acc[order[m]];
    } else {
      f := ForEachServerFirstError(acc', order, i + 1, step);
      assert forall m :: i < m < |order| ==> acc'[order[m]] == acc[order[m]];
      assert forall m :: i <= m < f ==> step(order[m], acc[order[m]]).err.None?;
      ForEachServerUntouched(acc', order, i + 1, step, a);
      assert forall m :: i <= m <= f ==> r.state[order[m]] == step(order[m], acc[order[m]]).state;
    }
  }

  /** The loop over all servers, in `order`. */
  function ForEachServer(servers: map<string, NatsServer>, order: seq<string>,
                         step: (string, NatsServer) -> Step<NatsServer>)
    : (r: Step<map<string, NatsServer>>)
    requires IsEnumeration(order, servers)
    ensures r.state.Keys == servers.Keys
    ensures forall k :: k in servers ==> r.state[k] == servers[k] || r.state[k] == step(k, servers[k]).state
    ensures r.err.None? <==> forall k :: k in servers ==> step(k, servers[k]).err.None?
    ensures r.err.None? ==> forall k :: k in servers ==> r.state[k] == step(k, servers[k]).state
  {
    ForEachServerKeyWise(servers, order, 0, step);
    ForEachServerAllOk(servers, order, 0, step);
    ForEachServerFrom(servers, order, 0, step)
  }

  /** A connect option `Start` passes for server `s`: JWT and seed only when
      both are set, the client name and inbox prefix when set, the user
      credential file when set and otherwise the nkey seed file when set,
      and unlimited reconnects always. */
  predicate ExpectedOption(s: NatsServer, o: ConnectOption) {
    || (o == UserJwtAndSeed(s.jwt, s.seed) && s.jwt != "" && s.seed != "")
    || (o == Name(s.clientName) && s.clientName != "")
    || (o == CustomInboxPrefix(s.inboxPrefix) && s.inboxPrefix != "")
    || (o == UserCredentials(s.userCredentialFile) && s.userCredentialFile != "")
    || (o == NkeyFromSeedFile(s.nkeyCredentialFile) && s.userCredentialFile == "" && s.nkeyCredentialFile != "")
    || o == MaxReconnects(-1)
  }

  /** The options `Start` passes to `nats.Connect` for a server, or the error
      of a nkey seed file that does not load. */
  function ConnectOptions(s: NatsServer, nkeyLoads: bool): (r: Result<seq<ConnectOption>, AppError>)
    ensures r.Err? <==> s.userCredentialFile == "" && s.nkeyCredentialFile != "" && !nkeyLoads
    ensures r.Err? ==> r.error == NkeyLoadFailed(s.nkeyCredentialFile)
    ensures r.Ok? ==> forall o :: o in r.value <==> ExpectedOption(s, o)
    ensures r.Ok? ==> r.value != [] && r.value[|r.value| - 1] == MaxReconnects(-1)
  {
    var jwt := if s.jwt != "" && s.seed != "" then [UserJwtAndSeed(s.jwt, s.seed)] else [];
    var name := if s.clientName != "" then [Name(s.clientName)] else [];
    var inbox := if s.inboxPrefix != "" then [CustomInboxPrefix(s.inboxPrefix)] else [];
    var cred :=
      if s.userCredentialFile != "" then [UserCredentials(s.userCredentialFile)]
      else if s.nkeyCredentialFile != "" then [NkeyFromSeedFile(s.nkeyCredentialFile)]
      else [];
    if s.userCredentialFile == "" && s.nkeyCredentialFile != "" && !nkeyLoads then
      Err(NkeyLoadFailed(s.nkeyCredentialFile))
    else
      var opts := jwt + name + inbox + cred + [MaxReconnects(-1)];
      assert forall o :: o in opts <==> o in jwt || o in name || o in inbox || o in cred || o == MaxReconnects(-1);
      Ok(opts)
  }

  /** `for _, handler := range server.Handlers { handler.Subscribe(conn) }`
      from index `i`: handlers are subscribed in list order and the first
      failure stops the loop. */
  function SubscribeFrom(alias: string, s: NatsServer, i: nat, subscribes: (string, Handler) -> bool)
    : (r: Step<NatsServer>)
    requires i <= |s.handlers|
    ensures r.state == s.(subscribed := r.state.subscribed)
    ensures r.err.None? <==> forall j :: i <= j < |s.handlers| ==> subscribes(alias, s.handlers[j])
    ensures forall j :: i <= j < |s.handlers| ==>
              (j in r.state.subscribed <==>
               j in s.subscribed || forall m :: i <= m <= j ==> subscribes(alias, s.handlers[m]))
    ensures forall j :: j < i || j >= |s.handlers| ==> (j in r.state.subscribed <==> j in s.subscribed)
    ensures r.err.Some? ==>
              && r.err.value.SubscribeFailed? && r.err.value.alias == alias
              && i <= r.err.value.index < |s.handlers|
              && !subscribes(alias, s.handlers[r.err.value.index])
              && forall m :: i <= m < r.err.value.index ==> subscribes(alias, s.handlers[m])
    decreases |s.handlers| - i
  {
    if i == |s.handlers| then Step(s, None)
    else if !subscribes(alias, s.handlers[i]) then Step(s, Some(SubscribeFailed(alias, i)))
    else SubscribeFrom(alias, s.(subscribed := s.subscribed + {i}), i + 1, subscribes)
  }

  /** `for _, handler := range server.Handlers { handler.Unsubscribe(conn) }`
      from index `i`: the first failure stops the loop. */
  function UnsubscribeFrom(alias: string, s: NatsServer, i: nat, unsubscribes: (string, Handler) -> bool)
    : (r: Step<NatsServer>)
    requires i <= |s.handlers|
    ensures r.state == s.(subscribed := r.state.subscribed)
    ensures r.err.None? <==> forall j :: i <= j < |s.handlers| ==> unsubscribes(alias, s.handlers[j])
    ensures forall j :: i <= j < |s.handlers| ==>
              (j in r.state.subscribed <==>
               j in s.subscribed && !forall m :: i <= m <= j ==> unsubscribes(alias, s.handlers[m]))
    ensures forall j :: j < i || j >= |s.handlers| ==> (j in r.state.subscribed <==> j in s.subscribed)
    ensures r.err.Some? ==>
              && r.err.value.UnsubscribeFailed? && r.err.value.alias == alias
              && i <= r.err.value.index < |s.handlers|
              && !unsubscribes(alias, s.handlers[r.err.value.index])
              && forall m :: i <= m < r.err.value.index ==> unsubscribes(alias, s.handlers[m])
    decreases |s.handlers| - i
  {
    if i == |s.handlers| then Step(s, None)
    else if !unsubscribes(alias, s.handlers[i]) then Step(s, Some(UnsubscribeFailed(alias, i)))
    else UnsubscribeFrom(alias, s.(subscribed := s.subscribed - {i}), i + 1, unsubscribes)
  }

  /** The body of `Start`'s loop for one server: build the options, connect,
      subscribe every handler. */
  function StartServer(alias: string, s: NatsServer, env: BusEnv): (r: Step<NatsServer>)
    ensures var opts := ConnectOptions(s, env.nkeyLoads(s.nkeyCredentialFile));
            r.err.None? <==>
              && opts.Ok?
              && env.connects(s.url, opts.value)
              && forall j :: 0 <= j < |s.handlers| ==> env.subscribes(alias, s.handlers[j])
    ensures r.err.None? ==>
              && r.state.conn == Open(s.url, ConnectOptions(s, env.nkeyLoads(s.nkeyCredentialFile)).value)
              && forall j :: 0 <= j < |s.handlers| ==> j in r.state.subscribed
    ensures var opts := ConnectOptions(s, env.nkeyLoads(s.nkeyCredentialFile));
            opts.Err? ==> r == Step(s, Some(opts.error))
    ensures var opts := ConnectOptions(s, env.nkeyLoads(s.nkeyCredentialFile));
            opts.Ok? && !env.connects(s.url, opts.value) ==>
              r.err == Some(ConnectFailed(s.url)) && r.state == s.(conn := NoConn)
    ensures var opts := ConnectOptions(s, env.nkeyLoads(s.nkeyCredentialFile));
            opts.Ok? && env.connects(s.url, opts.value) && r.err.Some? ==>
              && r.state.conn == Open(s.url, opts.value)
              && r.err.value.SubscribeFailed? && r.err.value.alias == alias
              && 0 <= r.err.value.index < |s.handlers|
              && !env.subscribes(alias, s.handlers[r.err.value.index])
              && (forall m :: 0 <= m < r.err.value.index ==> env.subscribes(alias, s.handlers[m]))
  {
    match ConnectOptions(s, env.nkeyLoads(s.nkeyCredentialFile))
    case Err(e) => Step(s, Some(e))
    case Ok(opts) =>
      if !env.connects(s.url, opts) then Step(s.(conn := NoConn), Some(ConnectFailed(s.url)))
      else SubscribeFrom(alias, s.(conn := Open(s.url, opts)), 0, env.subscribes)
  }

  function StartStep(env: BusEnv): (string, NatsServer) -> Step<NatsServer> {
    (a, s) => StartServer(a, s, env)
  }

  /** `Start`: every server in turn is connected and its handlers subscribed;
      the first failure is returned and later servers are left as they were. */
  function Start(app: App, order: seq<string>, env: BusEnv): (r: Step<App>)
    requires IsEnumeration(order, app.servers)
    ensures r.state.servers.Keys == app.servers.Keys
    ensures r.err.None? <==> forall k :: k in app.servers ==> StartServer(k, app.servers[k], env).err.None?
    ensures r.err.None? ==> forall k :: k in app.servers ==>
              r.state.servers[k] == StartServer(k, app.servers[k], env).state
  {
    var u := ForEachServer(app.servers, order, StartStep(env));
    Step(App(u.state), u.err)
  }

  /** Every handler of server `s` unsubscribes successfully. */
  predicate UnsubscribesAll(unsubscribes: (string, Handler) -> bool, alias: string, s: NatsServer) {
    forall j :: 0 <= j < |s.handlers| ==> unsubscribes(alias, s.handlers[j])
  }

  /** No handler of `s` holds a live subscription. */
  predicate NoneSubscribed(s: NatsServer) {
    forall j :: 0 <= j < |s.handlers| ==> j !in s.subscribed
  }

  /** A server all of whose handlers unsubscribe ends with no live subscription. */
  lemma UnsubscribeAllClears(servers: map<string, NatsServer>, unsubscribes: (string, Handler) -> bool)
    ensures forall k :: k in servers && UnsubscribesAll(unsubscribes, k, servers[k]) ==>
              NoneSubscribed(UnsubscribeFrom(k, servers[k], 0, unsubscribes).state)
  {
    forall k | k in servers && UnsubscribesAll(unsubscribes, k, servers[k])
      ensures NoneSubscribed(UnsubscribeFrom(k, servers[k], 0, unsubscribes).state)
    {
      var s := servers[k];
      var r := UnsubscribeFrom(k, s, 0, unsubscribes);
      forall j | 0 <= j < |s.handlers|
        ensures j !in r.state.subscribed
      {
        assert forall m :: 0 <= m <= j ==> unsubscribes(k, s.handlers[m]);
      }
    }
  }

  /** `Conn.Close`: an open connection becomes closed; closing a nil or
      closed connection does nothing. */
  function CloseConn(c: Conn): (r: Conn)
    ensures !r.Open?
    ensures c.Open? ==> r == Closed(c.url, c.options)
    ensures !c.Open? ==> r == c
  {
    match c
    case Open(url, options) => Closed(url, options)
    case _ => c
  }

  function StopStep(env: BusEnv): (string, NatsServer) -> Step<NatsServer> {
    (a, s) => UnsubscribeFrom(a, s, 0, env.unsubscribes)
  }

  /** `Stop`: unsubscribe every handler of every server, returning at the
      first failure, and (deferred) close every server's connection whatever
      happened. */
  function Stop(app: App, order: seq<string>, env: BusEnv): (r: Step<App>)
    requires IsEnumeration(order, app.servers)
    ensures r.state.servers.Keys == app.servers.Keys
    ensures forall k :: k in app.servers ==> !r.state.servers[k].conn.Open?
    ensures forall k :: k in app.servers && app.servers[k].conn.Open? ==>
              r.state.servers[k].conn == Closed(app.servers[k].conn.url, app.servers[k].conn.options)
    ensures r.err.None? <==> forall k :: k in app.servers ==> UnsubscribesAll(env.unsubscribes, k, app.servers[k])
    ensures r.err.None? ==> forall k :: k in app.servers ==> NoneSubscribed(r.state.servers[k])
  {
    var u := ForEachServer(app.servers, order, StopStep(env));
    UnsubscribeAllClears(app.servers, env.unsubscribes);
    Step(App(CloseAll(u.state)), u.err)
  }

  /** The deferred loop of `Stop`: every server's connection closed, nothing
      else changed. */
  function CloseAll(servers: map<string, NatsServer>): (r: map<string, NatsServer>)
    ensures r.Keys == servers.Keys
    ensures forall k :: k in r ==> r[k] == servers[k].(conn := CloseConn(servers[k].conn))
  {
    map k | k in servers :: servers[k].(conn := CloseConn(servers[k].conn))
  }

  /** A failed `Start` reports the error of the first server, in iteration
      order, whose connect or subscribe failed. Nothing is rolled back: the
      servers before it stay connected with every handler subscribed, the
      failing one keeps what its own attempt left, and the servers after it
      were not touched. */
  lemma StartStopsAtFirstFailure(app: App, order: seq<string>, env: BusEnv)
    requires IsEnumeration(order, app.servers)
    ensures var r := Start(app, order, env);
            r.err.Some? ==>
              exists f :: 0 <= f < |order|
                && r.err == StartServer(order[f], app.servers[order[f]], env).err
                && (forall m :: 0 <= m < f ==> StartServer(order[m], app.servers[order[m]], env).err.None?)
                && (forall m :: 0 <= m < f ==>
                      && r.state.servers[order[m]].conn.Open?
                      && forall j :: 0 <= j < |app.servers[order[m]].handlers| ==> j in r.state.servers[order[m]].subscribed)
                && r.state.servers[order[f]] == StartServer(order[f], app.servers[order[f]], env).state
                && (forall m :: f < m < |order| ==> r.state.servers[order[m]] == app.servers[order[m]])
  {
    if Start(app, order, env).err.Some? {
      var f := ForEachServerFirstError(app.servers, order, 0, StartStep(env));
    }
  }

  /** A failed `Stop` reports the first failing unsubscribe of the first
      server, in iteration order, that had one. The servers before it are
      left with no live subscription, the failing one keeps the handlers it
      did not get to unsubscribe, and the servers after it keep their
      subscriptions; every connection is closed. */
  lemma StopStopsAtFirstFailure(app: App, order: seq<string>, env: BusEnv) returns (f: nat)
    requires IsEnumeration(order, app.servers)
    ensures var r := Stop(app, order, env);
            r.err.Some? ==>
              && f < |order|
              && r.err == UnsubscribeFrom(order[f], app.servers[order[f]], 0, env.unsubscribes).err
              && (forall m :: 0 <= m < f ==> UnsubscribesAll(env.unsubscribes, order[m], app.servers[order[m]]))
              && (forall m :: 0 <= m < f ==> NoneSubscribed(r.state.servers[order[m]]))
              && r.state.servers[order[f]].subscribed
                   == UnsubscribeFrom(order[f], app.servers[order[f]], 0, env.unsubscribes).state.subscribed
              && (forall m :: f < m < |order| ==>
                      r.state.servers[order[m]].subscribed == app.servers[order[m]].subscribed)
  {
    f := 0;
    if Stop(app, order, env).err.Some? {
      var step := StopStep(env);
      var u := ForEachServerFrom(app.servers, order, 0, step);
      f := ForEachServerFirstError(app.servers, order, 0, step);
      StopStateAfterFailure(app, order, env, f);
      assert Stop(app, order, env).err == u.err;
    }
  }

  /** What `Stop` leaves in each server, given the first failing server `f`
      of its unsubscribe loop. */
  lemma StopStateAfterFailure(app: App, order: seq<string>, env: BusEnv, f: nat)
    requires IsEnumeration(order, app.servers) && f < |order|
    requires var u := ForEachServerFrom(app.servers, order, 0, StopStep(env));
             && (forall m :: 0 <= m < f ==> StopStep(env)(order[m], app.servers[order[m]]).err.None?)
             && (forall m :: 0 <= m <= f ==> u.state[order[m]] == StopStep(env)(order[m], app.servers[order[m]]).state)
             && (forall m :: f < m < |order| ==> u.state[order[m]] == app.servers[order[m]])
    ensures var r := Stop(app, order, env);
            && (forall m :: 0 <= m < f ==> UnsubscribesAll(env.unsubscribes, order[m], app.servers[order[m]]))
            && (forall m :: 0 <= m < f ==> NoneSubscribed(r.state.servers[order[m]]))
            && r.state.servers[order[f]].subscribed
                 == UnsubscribeFrom(order[f], app.servers[order[f]], 0, env.unsubscribes).state.subscribed
            && (forall m :: f < m < |order| ==>
                  r.state.servers[order[m]].subscribed == app.servers[order[m]].subscribed)
  {
    var u := ForEachServerFrom(app.servers, order, 0, StopStep(env));
    var r := Stop(app, order, env);
    assert r.state.servers == CloseAll(u.state);
    UnsubscribeAllClears(app.servers, env.unsubscribes);
    forall m | 0 <= m < f
      ensures UnsubscribesAll(env.unsubscribes, order[m], app.servers[order[m]])
      ensures NoneSubscribed(r.state.servers[order[m]])
    {
      var k := order[m];
      assert UnsubscribeFrom(k, app.servers[k], 0, env.unsubscribes).err.None?;
    }
  }
}

=== FILE: request.dfy ===
/** The `nats_request` HTTP handler: one HTTP request becomes one bus
    request, and the bus outcome is projected onto the HTTP response (status,
    headers, body).  The bus call is represented by the outcome it would
    deliver; the result records whether the call was made at all. */
module NatsRequest {
  import opened Results
  import opened Text
  import opened Headers
  import opened HttpToNats
  import App = NatsBridgeApp

  /** The handler's configuration (`Request`). */
  datatype Request = Request(subject: string, timeout: int, serverAlias: string)

  /** `CaddyModule().New`: the handler's default values. */
  function NewRequest(): (p: Request)
    ensures p.timeout == 30 * App.Second
    ensures p.serverAlias == "default"
    ensures p.subject == ""
  {
    Request("", 30 * App.Second, "default")
  }

  /** What `RequestMsg` returns: a reply, or one of its failures. */
  datatype BusOutcome = Reply(reply: Msg) | NoResponders | TimedOut | OtherFailure

  /** A bus request the handler issued: on which server alias, with which
      message and timeout. */
  datatype BusRequest = BusRequest(alias: string, msg: Msg, timeout: int)

  /** The HTTP response as written: `status` is `None` when `WriteHeader` was
      never called (the wire status is then 200), `body` is `None` when
      `Write` was never called. */
  datatype Response = Response(status: Option<int>, header: Header, body: Option<seq<uint8>>)

  function WireStatus(resp: Response): int {
    resp.status.GetOr(200)
  }

  datatype ServeError =
    | AliasNotFound(alias: string)
    | Translation(cause: TranslateError)
    | NoRespondersError
    | RequestFailed(outcome: BusOutcome)
    | BadStatusCode(code: string)
    | WriteFailed

  /** Everything `ServeHTTP` did: the bus request it sent, if any, the
      response it wrote, and the error it returned, if any. */
  datatype Served = Served(sent: Option<BusRequest>, response: Response, err: Option<ServeError>)

  const ErrorCodeHeader: string := "Nats-Service-Error-Code"

  /** The four reply header spellings never copied to the HTTP response. */
  const FilteredHeaders: set<string> :=
    {"Nats-Service-Error", "Nats-Service-Error-Code", "nats-service-error", "nats-service-error-code"}

  /** The reply headers the response receives. */
  function FilterReplyHeader(h: Header): (r: Header)
    ensures r.Keys == h.Keys - FilteredHeaders
    ensures forall k :: k in r ==> r[k] == h[k]
  {
    map k | k in h && k !in FilteredHeaders :: h[k]
  }

  /** The status override carried by the reply: none for an absent, empty or
      "200" code, the parsed integer otherwise, and an error for a code that
      is not an integer. */
  function StatusOverride(code: string): (r: Result<Option<int>, ServeError>)
    ensures code == "" || code == "200" ==> r == Ok(None)
    ensures code != "" && code != "200" ==>
              match Atoi(code)
              case Some(n) => r == Ok(Some(n))
              case None => r == Err(BadStatusCode(code))
  {
    if code == "" || code == "200" then Ok(None)
    else match Atoi(code)
      case None => Err(BadStatusCode(code))
      case Some(n) => Ok(Some(n))
  }

  /** The reply projected onto the response: filtered headers appended to
      those already on the response, then the status override, then the
      body (unless the override is malformed). */
  function ProjectReply(reply: Msg, pre: Header, writeFails: bool): (r: Served)
    ensures r.sent.None?
    ensures r.response.header == Merge(pre, FilterReplyHeader(reply.header))
    ensures var code := StatusOverride(Get(reply.header, ErrorCodeHeader));
            && (code.Err? ==> r.response.status == Some(500) && r.response.body.None? && r.err == Some(code.error))
            && (code.Ok? ==>
                  && r.response.status == code.value
                  && r.response.body == Some(reply.data)
                  && (r.err.None? <==> !writeFails)
                  && (r.err.Some? ==> r.err == Some(WriteFailed)))
  {
    var header := Merge(pre, FilterReplyHeader(reply.header));
    match StatusOverride(Get(reply.header, ErrorCodeHeader))
    case Err(e) => Served(None, Response(Some(500), header, None), Some(e))
    case Ok(status) =>
      Served(None, Response(status, header, Some(reply.data)), if writeFails then Some(WriteFailed) else None)
  }

  /** `ServeHTTP`, with `subject` the subject after placeholder substitution,
      `extras` the context headers, `pre` the headers already on the
      response, `outcome` what the bus delivers if asked, and `writeFails`
      whether writing the body fails. */
  function ServeHTTP(p: Request, app: App.App, subject: string, r: HttpRequest,
                     extras: map<string, string>, pre: Header,
                     outcome: BusOutcome, writeFails: bool): (s: Served)
    ensures p.serverAlias !in app.servers ==>
              s == Served(None, Response(None, pre, None), Some(AliasNotFound(p.serverAlias)))
    ensures p.serverAlias in app.servers && !ValidSubject(subject) ==>
              s == Served(None, Response(None, pre, None), Some(Translation(InvalidSubject(subject))))
    ensures s.sent.Some? <==> p.serverAlias in app.servers && ValidSubject(subject)
    ensures s.sent.Some? ==>
              s.sent.value == BusRequest(p.serverAlias, NatsMsgForHttpRequest(r, subject, extras).value, p.timeout)
    ensures s.sent.Some? && outcome.NoResponders? ==>
              s.response == Response(Some(404), pre, None) && s.err == Some(NoRespondersError)
    ensures s.sent.Some? && (outcome.TimedOut? || outcome.OtherFailure?) ==>
              s.response == Response(Some(500), pre, None) && s.err == Some(RequestFailed(outcome))
    ensures s.sent.Some? && outcome.Reply? ==> s.response.header == Merge(pre, FilterReplyHeader(outcome.reply.header))
    ensures s.err.None? ==> s.sent.Some? && outcome.Reply? && s.response.body == Some(outcome.reply.data)
    ensures s.sent.Some? && outcome.Reply? && s.response.body.Some? ==>
              s.err == (if writeFails then Some(WriteFailed) else None)
  {
    if p.serverAlias !in app.servers then
      Served(None, Response(None, pre, None), Some(AliasNotFound(p.serverAlias)))
    else match NatsMsgForHttpRequest(r, subject, extras)
      case Err(e) => Served(None, Response(None, pre, None), Some(Translation(e)))
      case Ok(msg) =>
        var sent := Some(BusRequest(p.serverAlias, msg, p.timeout));
        match outcome
        case NoResponders => Served(sent, Response(Some(404), pre, None), Some(NoRespondersError))
        case TimedOut => Served(sent, Response(Some(500), pre, None), Some(RequestFailed(outcome)))
        case OtherFailure => Served(sent, Response(Some(500), pre, None), Some(RequestFailed(outcome)))
        case Reply(reply) => ProjectReply(reply, pre, writeFails).(sent := sent)
  }

  /** A reply whose status code is the decimal form of `n` is answered with
      status `n` (when it is not "200", which leaves the default 200). */
  lemma ReplyStatusRoundTrip(p: Request, app: App.App, subject: string, r: HttpRequest,
                             extras: map<string, string>, pre: Header, reply: Msg, writeFails: bool, n: int)
    requires p.serverAlias in app.servers && ValidSubject(subject)
    requires Text.MinInt64 <= n <= Text.MaxInt64
    requires Values(reply.header, ErrorCodeHeader) != [] && reply.header[ErrorCodeHeader][0] == FormatInt(n)
    ensures WireStatus(ServeHTTP(p, app, subject, r, extras, pre, Reply(reply), writeFails).response) == n
    ensures ServeHTTP(p, app, subject, r, extras, pre, Reply(reply), writeFails).response.body == Some(reply.data)
  {
    var code := Get(reply.header, ErrorCodeHeader);
    assert code == FormatInt(n);
    AtoiFormatInt(n);
    AtoiTwoHundred();
    assert code != "";
    if code == "200" {
      assert n == 200;
      assert StatusOverride(code) == Ok(None);
    } else {
      assert StatusOverride(code) == Ok(Some(n));
    }
  }

  /** Without a usable code the status stays the default 200 and the reply
      data is written; a non-integer code gives 500, an error and no body. */
  lemma ReplyStatusCases(p: Request, app: App.App, subject: string, r: HttpRequest,
                         extras: map<string, string>, pre: Header, reply: Msg, writeFails: bool)
    requires p.serverAlias in app.servers && ValidSubject(subject)
    ensures var code := Get(reply.header, ErrorCodeHeader);
            var s := ServeHTTP(p, app, subject, r, extras, pre, Reply(reply), writeFails);
            && (code == "" || code == "200" ==>
                  s.response.status == None && s.response.body == Some(reply.data)
                  && (s.err.None? <==> !writeFails))
            && (code != "" && code != "200" && Atoi(code).Some? ==>
                  s.response.status == Some(Atoi(code).value) && s.response.body == Some(reply.data)
                  && (s.err.None? <==> !writeFails))
            && (code != "" && code != "200" && Atoi(code).None? ==>
                  s.response.status == Some(500) && s.response.body == None && s.err == Some(BadStatusCode(code)))
  {
  }

  /** A header among the four filtered spellings keeps on the response only
      what was there before; every other reply header has all its values
      appended in order. */
  lemma ResponseHeaderValues(p: Request, app: App.App, subject: string, r: HttpRequest,
                             extras: map<string, string>, pre: Header, reply: Msg, writeFails: bool, k: string)
    requires p.serverAlias in app.servers && ValidSubject(subject)
    ensures var h := ServeHTTP(p, app, subject, r, extras, pre, Reply(reply), writeFails).response.header;
            Values(h, k) == if k in FilteredHeaders then Values(pre, k) else Values(pre, k) + Values(reply.header, k)
  {
    var f := FilterReplyHeader(reply.header);
    assert Values(f, k) == if k in FilteredHeaders then [] else Values(reply.header, k);
  }

  /** A reply code of "200" is answered exactly like a reply without the code
      header. */
  lemma CodeTwoHundredSameAsAbsent(p: Request, app: App.App, subject: string, r: HttpRequest,
                                   extras: map<string, string>, pre: Header, reply: Msg, writeFails: bool)
    requires ErrorCodeHeader !in reply.header
    ensures var with200 := reply.(header := reply.header[ErrorCodeHeader := ["200"]]);
            ServeHTTP(p, app, subject, r, extras, pre, Reply(with200), writeFails)
            == ServeHTTP(p, app, subject, r, extras, pre, Reply(reply), writeFails)
  {
    var h2 := reply.header[ErrorCodeHeader := ["200"]];
    assert FilterReplyHeader(h2) == FilterReplyHeader(reply.header);
  }

  /** Only the exact key "Nats-Service-Error-Code" is read for the status: a
      reply carrying the code under the lower-case spelling alone has it
      filtered out and keeps the default status. */
  lemma LowerCaseCodeIgnored(p: Request, app: App.App, subject: string, r: HttpRequest,
                             extras: map<string, string>, pre: Header, reply: Msg, writeFails: bool)
    requires p.serverAlias in app.servers && ValidSubject(subject)
    requires ErrorCodeHeader !in reply.header
    ensures var s := ServeHTTP(p, app, subject, r, extras, pre, Reply(reply), writeFails);
            s.response.status == None && "nats-service-error-code" !in s.response.header - pre.Keys
  {
  }
}

=== FILE: results.dfy ===
/** Failure-carrying values shared by every module of the bridge model:
    `Option` for Go's nil-able pointers and slices, `Result` for Go's
    `(value, error)` return pairs. */
module Results {

  datatype Option<+T> = None | Some(value: T) {
    /** The wrapped value, or `default` when there is none. */
    function GetOr(default: T): T {
      match this
      case Some(v) => v
      case None => default
    }
  }

  datatype Result<+T, +E> = Ok(value: T) | Err(error: E) {
    predicate IsFailure() {
      Err?
    }

    function PropagateFailure<U>(): Result<U, E>
      requires Err?
    {
      Err(error)
    }

    function Extract(): T
      requires Ok?
    {
      value
    }
  }
}

=== FILE: text.dfy ===
/** ASCII string helpers standing in for Go's `strings` and `strconv`
    functions that the bridge calls: `ToLower`, `TrimSpace`, `Split`,
    `Atoi`.  Only the ASCII behaviour is modelled. */
module Text {
  import opened Results

  // ---------------------------------------------------------------------------
  // Case folding (strings.ToLower restricted to ASCII)
  // ---------------------------------------------------------------------------

  predicate IsUpper(c: char) {
    'A' <= c <= 'Z'
  }

  function LowerChar(c: char): (r: char)
    ensures !IsUpper(r)
    ensures IsUpper(c) ==> r as int == c as int + 32
    ensures !IsUpper(c) ==> r == c
  {
    if IsUpper(c) then (c as int + 32) as char else c
  }

  function Lower(s: string): (r: string)
    ensures |r| == |s|
    ensures forall i :: 0 <= i < |s| ==> r[i] == LowerChar(s[i])
  {
    if s == [] then [] else [LowerChar(s[0])] + Lower(s[1..])
  }

  /** Two strings are equal up to ASCII case. */
  predicate EqualFold(a: string, b: string) {
    |a| == |b| && forall i :: 0 <= i < |a| ==> LowerChar(a[i]) == LowerChar(b[i])
  }

  /** Lowering is idempotent and leaves no upper-case letter behind. */
  lemma LowerIdempotent(s: string)
    ensures Lower(Lower(s)) == Lower(s)
    ensures forall i :: 0 <= i < |s| ==> !IsUpper(Lower(s)[i])
  {
  }

  /** `Lower` identifies exactly the strings that are equal up to case. */
  lemma LowerEqualIffEqualFold(a: string, b: string)
    ensures Lower(a) == Lower(b) <==> EqualFold(a, b)
  {
    if EqualFold(a, b) {
      assert forall i :: 0 <= i < |a| ==> Lower(a)[i] == Lower(b)[i];
    }
  }

  // ---------------------------------------------------------------------------
  // Whitespace trimming (strings.TrimSpace restricted to ASCII)
  // ---------------------------------------------------------------------------

  /** ASCII white space as Go's `unicode.IsSpace` sees it. */
  predicate IsSpace(c: char) {
    c == ' ' || c == '\t' || c == '\n' || c == '\U{000B}' || c == '\U{000C}' || c == '\r'
  }

  function TrimLeft(s: string): (r: string)
    ensures |r| <= |s| && r == s[|s| - |r|..]
    ensures forall i :: 0 <= i < |s| - |r| ==> IsSpace(s[i])
    ensures r == [] || !IsSpace(r[0])
  {
    if s != [] && IsSpace(s[0]) then TrimLeft(s[1..]) else s
  }

  function TrimRight(s: string): (r: string)
    ensures |r| <= |s| && r == s[..|r|]
    ensures forall i :: |r| <= i < |s| ==> IsSpace(s[i])
    ensures r == [] || !IsSpace(r[|r| - 1])
  {
    if s != [] && IsSpace(s[|s| - 1]) then TrimRight(s[..|s| - 1]) else s
  }

  /** The slice of `s` left after dropping leading and trailing white space. */
  function TrimSpace(s: string): (r: string)
    ensures exists i, j :: 0 <= i <= j <= |s| && r == s[i..j]
                           && (forall k :: 0 <= k < i ==> IsSpace(s[k]))
                           && (forall k :: j <= k < |s| ==> IsSpace(s[k]))
    ensures r == [] || (!IsSpace(r[0]) && !IsSpace(r[|r| - 1]))
    ensures r == [] <==> forall k :: 0 <= k < |s| ==> IsSpace(s[k])
  {
    var l := TrimLeft(s);
    var r := TrimRight(l);
    var i := |s| - |l|;
    assert r == s[i..i + |r|];
    assert forall k :: i <= k < |s| ==> s[k] == l[k - i];
    r
  }

  // ---------------------------------------------------------------------------
  // Splitting on a separator (strings.Split with a one-character separator)
  // ---------------------------------------------------------------------------

  /** Index of the first `sep` in `s`, or `|s|` when there is none. */
  function IndexOf(s: string, sep: char): (i: nat)
    ensures i <= |s|
    ensures forall k :: 0 <= k < i ==> s[k] != sep
    ensures i < |s| ==> s[i] == sep
  {
    if s == [] then 0
    else if s[0] == sep then 0
    else 1 + IndexOf(s[1..], sep)
  }

  /** The parts of `s` between occurrences of `sep`; `n` separators give
      `n + 1` parts, some possibly empty. */
  function Split(s: string, sep: char): (parts: seq<string>)
    ensures |parts| >= 1
    ensures forall p :: p in parts ==> sep !in p
    decreases |s|
  {
    var i := IndexOf(s, sep);
    if i == |s| then [s]
    else [s[..i]] + Split(s[i + 1..], sep)
  }

  /** Joins `parts` with `sep` between consecutive parts. */
  function Join(parts: seq<string>, sep: char): string
  {
    if |parts| == 0 then ""
    else if |parts| == 1 then parts[0]
    else parts[0] + [sep] + Join(parts[1..], sep)
  }

  /** Joining the parts back with the separator gives the original string. */
  lemma {:induction false} JoinSplit(s: string, sep: char)
    ensures Join(Split(s, sep), sep) == s
    decreases |s|
  {
    var i := IndexOf(s, sep);
    if i < |s| {
      var rest := s[i + 1..];
      JoinSplit(rest, sep);
      var tail := Split(rest, sep);
      assert Split(s, sep) == [s[..i]] + tail;
      assert (Split(s, sep))[1..] == tail;
      assert s == s[..i] + [sep] + rest;
    }
  }

  /** Conversely, separator-free parts are recovered by splitting their join. */
  lemma {:induction false} SplitJoin(parts: seq<string>, sep: char)
    requires |parts| >= 1
    requires forall p :: p in parts ==> sep !in p
    ensures Split(Join(parts, sep), sep) == parts
    decreases |parts|
  {
    if |parts| == 1 {
      NoSepIndex(parts[0], sep);
    } else {
      var s := Join(parts, sep);
      var p := parts[0];
      var rest := Join(parts[1..], sep);
      assert s == p + [sep] + rest;
      IndexAfterPrefix(p, rest, sep);
      assert s[..|p|] == p;
      assert s[|p| + 1..] == rest;
      SplitJoin(parts[1..], sep);
    }
  }

  lemma {:induction false} NoSepIndex(s: string, sep: char)
    requires sep !in s
    ensures IndexOf(s, sep) == |s|
    decreases |s|
  {
    if s != [] {
      NoSepIndex(s[1..], sep);
    }
  }

  lemma {:induction false} IndexAfterPrefix(p: string, rest: string, sep: char)
    requires sep !in p
    ensures IndexOf(p + [sep] + rest, sep) == |p|
    decreases |p|
  {
    if p != [] {
      assert (p + [sep] + rest)[1..] == p[1..] + [sep] + rest;
      IndexAfterPrefix(p[1..], rest, sep);
    }
  }

  // ---------------------------------------------------------------------------
  // Decimal integers (strconv.Atoi on a 64-bit platform, strconv.Itoa)
  // ---------------------------------------------------------------------------

  const MinInt64: int := -0x8000_0000_0000_0000
  const MaxInt64: int := 0x7FFF_FFFF_FFFF_FFFF

  predicate IsDigit(c: char) {
    '0' <= c <= '9'
  }

  predicate AllDigits(s: string) {
    forall i :: 0 <= i < |s| ==> IsDigit(s[i])
  }

  function DigitValue(c: char): (d: nat)
    requires IsDigit(c)
    ensures d < 10
  {
    c as int - '0' as int
  }

  function DigitChar(d: nat): (c: char)
    requires d < 10
    ensures IsDigit(c) && DigitValue(c) == d
  {
    ('0' as int + d) as char
  }

  /** The value of a decimal digit string, most significant digit first. */
  function DigitsValue(ds: string): nat
    requires AllDigits(ds)
  {
    if ds == [] then 0
    else DigitsValue(ds[..|ds| - 1]) * 10 + DigitValue(ds[|ds| - 1])
  }

  /** An optional leading `+` or `-`, and what follows it. */
  datatype Signed = Signed(negative: bool, rest: string)

  function SplitSign(s: string): (r: Signed)
    ensures r.rest == s || (|s| > 0 && r.rest == s[1..])
  {
    if |s| > 0 && (s[0] == '+' || s[0] == '-') then Signed(s[0] == '-', s[1..]) else Signed(false, s)
  }

  /** The value of a sign and a digit string. */
  function SignedValue(sg: Signed): int
    requires AllDigits(sg.rest)
  {
    if sg.negative then 0 - DigitsValue(sg.rest) else DigitsValue(sg.rest) as int
  }

  /** Whether `s` is a well-formed decimal integer within the 64-bit range. */
  predicate Int64Syntax(s: string) {
    var sg := SplitSign(s);
    sg.rest != [] && AllDigits(sg.rest) && MinInt64 <= SignedValue(sg) <= MaxInt64
  }

  /** `strconv.Atoi`: an optional sign followed by at least one decimal digit,
      whose value fits a 64-bit `int`; anything else is an error (`None`). */
  function Atoi(s: string): (r: Option<int>)
    ensures r.Some? <==> Int64Syntax(s)
    ensures r.Some? ==> MinInt64 <= r.value <= MaxInt64
    ensures r.Some? ==> SplitSign(s).rest != [] && AllDigits(SplitSign(s).rest)
    ensures r.Some? ==> r.value == SignedValue(SplitSign(s))
    ensures r.Some? && r.value < 0 ==> s[0] == '-'
  {
    var ds := SplitSign(s).rest;
    if ds == [] || !AllDigits(ds) then None
    else
      var v := SignedValue(SplitSign(s));
      if MinInt64 <= v <= MaxInt64 then Some(v) else None
  }

  /** A leading zero adds nothing to a digit string's value. */
  lemma {:induction false} DigitsValueLeadingZero(d: string)
    requires AllDigits(d)
    ensures AllDigits("0" + d) && DigitsValue("0" + d) == DigitsValue(d)
    decreases |d|
  {
    var z := "0" + d;
    assert AllDigits(z) by {
      forall i | 0 <= i < |z| ensures IsDigit(z[i]) {
        if i > 0 { assert z[i] == d[i - 1]; }
      }
    }
    if d != [] {
      var init := d[..|d| - 1];
      assert z[..|z| - 1] == "0" + init;
      assert z[|z| - 1] == d[|d| - 1];
      DigitsValueLeadingZero(init);
    }
  }

  /** A leading `+` and leading zeros are accepted and change nothing:
      "+404" and "0404" parse like "404". */
  lemma AtoiPlusAndLeadingZero(d: string)
    requires d != [] && AllDigits(d)
    ensures Atoi("+" + d) == Atoi(d)
    ensures Atoi("0" + d) == Atoi(d)
  {
    assert SplitSign("+" + d).rest == d;
    DigitsValueLeadingZero(d);
  }

  /** `strconv.Itoa`: the canonical decimal form of `n`. */
  function FormatNat(n: nat): (s: string)
    ensures s != [] && AllDigits(s)
  {
    if n < 10 then [DigitChar(n)] else FormatNat(n / 10) + [DigitChar(n % 10)]
  }

  function FormatInt(n: int): string
  {
    if n < 0 then "-" + FormatNat(-n) else FormatNat(n)
  }

  lemma {:induction false} DigitsValueFormatNat(n: nat)
    ensures DigitsValue(FormatNat(n)) == n
  {
    if n >= 10 {
      var s := FormatNat(n);
      assert s[..|s| - 1] == FormatNat(n / 10);
      DigitsValueFormatNat(n / 10);
    }
  }

  /** Parsing the decimal form of any 64-bit integer gives that integer back. */
  lemma AtoiFormatInt(n: int)
    requires MinInt64 <= n <= MaxInt64
    ensures Atoi(FormatInt(n)) == Some(n)
  {
    if n < 0 {
      DigitsValueFormatNat(-n);
      assert SplitSign(FormatInt(n)).rest == FormatNat(-n);
    } else {
      DigitsValueFormatNat(n);
    }
  }

  /** The success sentinel "200" parses as 200. */
  lemma AtoiTwoHundred()
    ensures Atoi("200") == Some(200)
  {
    assert FormatNat(2) == "2";
    assert FormatNat(20) == "20";
    assert FormatNat(200) == "200";
    AtoiFormatInt(200);
  }
}
